=== FILE: README.md ===
# E-paper image codec

A Dafny model of the codec that turns a monochrome picture into the bytes an
ESP32 e-paper display receives. It has three stages:

1. **Bit packing** (`process_image`). The 200 × 200 one-bit frame is flattened
   row by row. `np.packbits` then packs it eight pixels per byte, first pixel
   in the most significant bit.
2. **C-array rendering**. Each byte becomes a `0X..` token with two
   upper-case hex digits. The tokens go 16 to a line, joined by `", "`, and
   the lines are joined by `",\n"`. The whole is wrapped as
   `const unsigned char IMAGE_BLACK[] PROGMEM = {\n … \n};`.
3. **C-array parsing** (`convert_h_to_bin`). It takes the text between the
   first `{` and the next `}` and splits it at commas. It keeps the fields
   whose stripped text starts with `0X`, reads each one with `int(_, 16)`, and
   turns the list into a `bytearray`. `int` skips the same whitespace that
   `strip` removes, except the information separators U+001C..U+001F. A kept
   field holding one of those is therefore rejected.

The centrepiece is `Codec.RenderParse`: parsing the rendered array of any
byte sequence gives back exactly that sequence. `Codec.DevicePayload`
composes all three stages. For a 200 × 200 frame the payload is the 5000
packed bytes, and unpacking them gives the frame's pixels in row-major order.

Modules, in dependency order:
- `Results`: `Option`, `Result`, and `Collect`, which evaluates a list the way
  a Python comprehension does (the first raise wins).
- `Seqs`: row-major flattening and filtering.
- `Text`: the `str` operations used here. These are `isspace`, `strip`,
  `split(c, 1)` (through `FirstIndex`, the position where it cuts),
  `split(',')` and `join`.
- `Hex`: hex digits.
- `Bytes`: bytes as 0..255 and their eight bits.
- `BitPack`: `packbits`, and `unpackbits` as its reference inverse.
- `CArray`: the renderer.
- `CParse`: the parser.
- `Codec`: the round trip and the image route's payload.

A byte is the newtype `byte = x: int | 0 <= x < 256`, not `bv8`. The two hold
the same values. Bit `k`, counted from the most significant end, is the binary
digit that `(b >> (7 - k)) & 1` extracts.

Parse errors are values of `CParse.ParseError`:
- `MissingOpenBrace`: `split('{', 1)` has no element 1, so an `IndexError`.
- `InvalidLiteral(field)`: `int` raises a `ValueError`.
- `ByteOutOfRange(v)`: `bytearray` raises a `ValueError` for a value of 256 or
  more.

Errors occur in Python's order. The first kept field that `int` rejects wins
over any range error, because the list comprehension finishes before
`bytearray` runs. `CParse.ParseFields` states this for any content with a
`{`: fields that do not start with `0X` once stripped are dropped, the bytes
are the kept fields' values in field order, and otherwise the error is that of
the first field `int` rejects or, when it rejects none, the first value above
255.

## Model

| member | source | states |
|---|---|---|
| Bytes.Octet | image_processing_server.py:78 | eight pixels form the byte whose bit k, most significant first, is pixel k |
| Bytes.ValueOfBits | image_processing_server.py:78 | a number below 2^n is spelled back by its n binary digits |
| Bytes.BitsOfValue | image_processing_server.py:78 | the n digits of the number a digit sequence spells are that sequence |
| Bytes.BitsDetermineByte | image_processing_server.py:78 | two bytes with the same eight bits are equal |
| Bytes.OctetOfBits | image_processing_server.py:78 | reassembling a byte's eight bits gives the byte |
| Bytes.BitsOfOctet | image_processing_server.py:78 | reading back the bits of an assembled byte gives the eight pixels |
| Bytes.FillBits | image_processing_server.py:78 | 0xFF has all eight bits set and 0x00 has none |
| Seqs.FlattenLength | image_processing_server.py:78 | flattening h rows of width w gives h·w pixels |
| Seqs.FlattenAt | image_processing_server.py:78 | row-major flattening puts cell (r, c) at index r·w + c |
| Seqs.Flatten | image_processing_server.py:78 | defined by its body, the rows concatenated in order; its meaning is stated by `Seqs.FlattenLength` and `Seqs.FlattenAt` |
| BitPack.Pack | image_processing_server.py:78 | n pixels pack into ⌈n/8⌉ bytes |
| BitPack.PackBitOrder | image_processing_server.py:78 | bit k of byte j is pixel 8j + k, and padding bits past the last pixel are 0 |
| BitPack.PackPixel | image_processing_server.py:78 | pixel i is bit i mod 8, most significant first, of byte ⌊i/8⌋ |
| BitPack.PackUnpack | image_processing_server.py:78 | packing the unpacked bits of any bytes gives the bytes back |
| BitPack.UnpackPack | image_processing_server.py:78 | unpacking the packed pixels gives the pixels followed only by zero padding |
| BitPack.FramePacking | image_processing_server.py:77-78 | a 200 × 200 frame packs into exactly 5000 bytes without padding, and pixel (r, c) is bit (200r + c) mod 8 of byte ⌊(200r + c)/8⌋ |
| BitPack.SolidPacking | image_processing_server.py:78 | whole bytes of pixels that are all on pack to 0xFF and all off to 0x00 |
| Hex.IsHexDigit | image_processing_server.py:16 | defined by its body, the digits `int(_, 16)` accepts: 0-9, a-f and A-F; its meaning is stated by `Hex.UpperDigit` and `CArray.Token` |
| Hex.DigitValue | image_processing_server.py:16 | defined by its body, the value `int` gives each digit, either case alike; the value is below 16, and its meaning is stated by `Hex.UpperDigit` and `CArray.Token` |
| Hex.UpperDigit | image_processing_server.py:79 | the digit written for d < 16 is 0-9 or A-F and reads back as d |
| CArray.Token | image_processing_server.py:79 | a token is four characters: "0X", then two upper-case hex digits whose value is the byte |
| CArray.Tokens | image_processing_server.py:79 | one token per byte in order, token k being "0X" and two hex digits whose value is byte k |
| CArray.Lines | image_processing_server.py:81 | the chunks number ⌈n/16⌉, none is empty, all but the last hold 16 tokens, and together they are the tokens in order |
| CArray.LinesAreSlices | image_processing_server.py:81 | chunk i is exactly tokens[16i : 16i + 16] |
| CArray.LineTexts | image_processing_server.py:81 | defined by its body, each chunk of tokens joined by ", "; its meaning is stated by `CArray.LineFields` and `CArray.LinesFields` |
| CArray.LineFields | image_processing_server.py:81 | a line joined by ", " splits at commas back into its tokens, all but the first behind one space |
| CArray.LinesFields | image_processing_server.py:81 | the lines of one or more tokens, joined by ",\n", split at commas into one field per token, behind a space within a line and a newline at a line start |
| CArray.BodyFields | image_processing_server.py:79-81 | the body of n ≥ 1 bytes has exactly n comma-separated fields (n = 0 is covered by `Codec.EmptyValues`), field k being byte k's token behind its whitespace, so there is no trailing comma |
| CArray.BodyFree | image_processing_server.py:79-81 | a character that is in no token and in neither separator, such as '}', does not occur in the body |
| CArray.Body | image_processing_server.py:81 | defined by its body, the lines of tokens joined by ",\n"; its meaning is stated by `CArray.BodyFields` and `CArray.BodyFree` |
| CArray.Render | image_processing_server.py:82 | defined by its body, the declaration with the body in braces; its meaning is stated by `CArray.RenderShape` and `Codec.RenderParse` |
| CArray.RenderShape | image_processing_server.py:82 | the header text is the fixed declaration, '{', a newline, the body, a newline and "};", and the declaration holds no '{' |
| Text.IsSpace | image_processing_server.py:16 | defined by its body, the characters `str.isspace` accepts; `Text.TrimLeft`, `Text.TrimRight` and `Text.Strip` state what strip removes with it |
| Text.TrimLeft | image_processing_server.py:16 | lstrip removes exactly a whitespace prefix and leaves a non-space first character |
| Text.TrimRight | image_processing_server.py:16 | rstrip removes exactly a whitespace suffix and leaves a non-space last character |
| Text.Strip | image_processing_server.py:16 | strip leaves no whitespace at either end, and is empty exactly for all-whitespace text |
| Text.StripMargins | image_processing_server.py:16 | whitespace added on either side does not change the stripped text |
| Text.StripSolid | image_processing_server.py:16 | text without whitespace at its ends is unchanged by strip |
| Text.FirstIndex | image_processing_server.py:15 | the index found holds the character with no earlier occurrence, and none is found exactly when it is absent |
| Text.Split | image_processing_server.py:16 | split(c) always yields at least one field; its meaning is stated by `Text.JoinSplit`, `Text.SplitJoin` and `Text.SplitFieldsFree` |
| Text.SplitFieldsFree | image_processing_server.py:16 | no field of split(c) contains c |
| Text.JoinSplit | image_processing_server.py:16 | joining the fields of split(c) with c gives the text back |
| Text.SplitJoin | image_processing_server.py:16 | splitting the c-join of one or more c-free parts gives the parts back; with no parts the join is "", which splits into [""] |
| Text.SplitAround | image_processing_server.py:16 | a separator splits the text into the fields on its left followed by those on its right |
| Text.SplitFramed | image_processing_server.py:16 | separator-free text on both sides joins the first and last field and keeps the field count |
| Text.Join | image_processing_server.py:81 | defined by its body, the parts with the separator between neighbours; its meaning is stated by `Text.JoinSplit`, `Text.SplitJoin` and `Text.JoinFree` |
| Text.JoinFree | image_processing_server.py:81 | a character in neither the separator nor any part is not in the joined text |
| Seqs.Filter | image_processing_server.py:16 | the filter keeps only qualifying elements, all of them when every one qualifies and none when none does |
| Seqs.FilterAppend | image_processing_server.py:16 | the filter distributes over concatenation, so kept fields keep their order |
| Results.Collect | image_processing_server.py:16 | the list succeeds exactly when every element does, with their values in order, and otherwise fails with the first failure |
| Results.CollectAllOk | image_processing_server.py:16 | when every element succeeds with a given value, the list is exactly those values |
| CParse.ArrayText | image_processing_server.py:15 | there is no array text exactly when the content has no '{', and the text holds no '}' |
| CParse.ArrayTextBetween | image_processing_server.py:15 | whatever precedes the first '{' and follows the next '}', the array text is what lies between them, or runs to the end when no '}' follows |
| CParse.Keep | image_processing_server.py:16 | only fields whose stripped text starts with "0X" remain, all of them when every field qualifies and none when none does |
| CParse.KeepSplice | image_processing_server.py:16 | a field the filter rejects is dropped and one it accepts stays in place between the kept fields on either side |
| CParse.DigitRun | image_processing_server.py:16 | scanning the text after the prefix yields values below 16, none exactly for empty text; which runs it accepts and what they yield is stated by `CParse.DigitRunGrammar` and `CParse.DigitRunValues` |
| CParse.ValidRunUnfold | image_processing_server.py:16 | a digit run is valid exactly when its first character is a digit or a '_' before a digit and the rest is valid |
| CParse.DigitRunGrammar | image_processing_server.py:16 | the scanner accepts exactly the runs of hex digits of either case where a single '_' may stand before any digit |
| CParse.DigitValues | image_processing_server.py:16 | the values of a digit string, one per digit, in order |
| CParse.DigitRunValues | image_processing_server.py:16 | an accepted run yields the values of its digits in order, with every '_' left out |
| CParse.ValidRunClean | image_processing_server.py:16 | an accepted run holds no information separator |
| CParse.HexNumber | image_processing_server.py:16 | n hex digits, most significant first, spell a number below 16^n; `CParse.HexNumberOfDigits` and `CParse.HexDigitsOfNumber` show it is the inverse of writing a number in n digits |
| CParse.HexDigits | image_processing_server.py:16 | the n lowest hex digits of a number: n values, each below 16 |
| CParse.HexNumberOfDigits | image_processing_server.py:16 | a number below 16^n is read back from its n digits |
| CParse.HexDigitsOfNumber | image_processing_server.py:16 | the n digits of the number a digit sequence spells are that sequence |
| CParse.ParseLiteral | image_processing_server.py:16 | int(_, 16) on a kept field either reads a number or fails with an error naming that field; which fields read as what is stated by `CParse.LiteralGrammar`, with examples in `CParse.HexLiteral`, `CParse.DigitsLiteral`, `CParse.BarePrefix` and `CParse.SeparatorMargin` |
| CParse.LiteralGrammar | image_processing_server.py:16 | int(_, 16) accepts a kept field exactly when it holds no information separator (U+001C..U+001F) and its stripped text is "0X" and a non-empty valid digit run; it then yields the number the run's digits spell |
| CParse.SeparatorMargin | image_processing_server.py:16 | a literal behind an information separator is kept, since strip removes the separator, but int(_, 16) rejects it, since int does not skip it |
| CParse.IntMargins | image_processing_server.py:16 | whitespace that int skips, around text without an information separator, leaves a field without one |
| CParse.IsKept | image_processing_server.py:16 | defined by its body, the comprehension's filter: the stripped field starts with "0X"; its meaning is stated by `CParse.SolidKept` and `CParse.KeepSplice` |
| Text.IsIntSpace | image_processing_server.py:16 | defined by its body, the whitespace `int` skips around a literal: `str.isspace` without U+001C..U+001F; its meaning is stated by `CParse.HexLiteral`, `CParse.SeparatorMargin` and `CParse.LiteralGrammar` |
| CParse.SolidKept | image_processing_server.py:16 | a field without surrounding whitespace is kept exactly when it begins with "0X" |
| CParse.HexLiteral | image_processing_server.py:16 | "0X" and two digits, with any whitespace that int skips around them, is kept and reads as the two-digit number |
| CParse.DigitsLiteral | image_processing_server.py:16 | a field with no whitespace at its ends, "0X" followed by a non-empty digit run spelling v, is kept and reads as v |
| CParse.ParseAll | image_processing_server.py:16 | the comprehension succeeds exactly when int accepts every kept field, giving each field's value in order, and otherwise fails with the first field int rejects |
| CParse.ParseAllOk | image_processing_server.py:16 | when every field is kept and reads as its value, the filter keeps them all and the list is exactly those values |
| CParse.BarePrefix | image_processing_server.py:16 | a kept field with no digit after "0X" is rejected by int |
| CParse.ByteOf | image_processing_server.py:20 | a value is a byte exactly when it is below 256, carried unchanged, and otherwise the value is reported |
| CParse.ToBytes | image_processing_server.py:20 | bytearray succeeds exactly when all values are below 256, giving bytes with the same values, and otherwise reports the first value that is too large |
| CParse.Parse | image_processing_server.py:15 | the parse fails with the missing-brace error exactly when the content has no '{' |
| CParse.ParseFields | image_processing_server.py:15-20 | for any content with a '{', the parse succeeds exactly when every kept field reads as a value below 256, giving those values in field order; the first field int rejects decides the error, and only when int rejects none is the first value above 255 reported |
| CParse.LaterUnreadable | image_processing_server.py:15-20 | of two kept fields, a second one that int rejects decides the error whatever the first one reads as |
| CParse.LoneLiteral | image_processing_server.py:15-20 | an array of one kept literal fails with that literal's int error, or yields the bytearray of its value |
| CParse.OversizedLiteral | image_processing_server.py:15-20 | "{0X100}" reads as 256, which bytearray refuses |
| CParse.BarePrefixParse | image_processing_server.py:15-16 | "{0X}" fails on int's rejection of "0X" |
| Codec.TokenLiteral | image_processing_server.py:79 | a rendered token with whitespace that int skips around it is kept and int(_, 16) reads it as the byte it was rendered from |
| Codec.ArrayFields | image_processing_server.py:80-82 | for one or more bytes, the text between the braces splits into one field per byte, the byte's token with whitespace on either side; for no bytes the single "\n\n" field is covered by `Codec.EmptyValues` |
| Codec.FindsInner | image_processing_server.py:15 | in the rendered array the parser finds exactly the text the renderer put between the braces |
| Codec.EmptyValues | image_processing_server.py:16 | an empty array's single whitespace field is dropped, leaving no values |
| Codec.InnerValues | image_processing_server.py:16 | every field of the rendered array is kept, and the values read are the bytes' values in order |
| Codec.BytesBack | image_processing_server.py:20 | the values read back become exactly the original bytes |
| Codec.RenderParse | image_processing_server.py:79-89 | parsing the rendered C array of any byte sequence returns that sequence |
| Codec.DevicePayload | image_processing_server.py:77-89 | for a single request, the uploaded payload is the packed frame; for a 200 × 200 frame it is 5000 bytes that unpack to the pixels in row-major order |
| Codec.SolidFramePayload | image_processing_server.py:77-89 | a one-colour frame is sent as 5000 bytes of 0xFF when all pixels are on and of 0x00 when all are off |

## Left out

- The PIL pipeline (lines 61-66): opening the upload, contrast, sharpening, resizing and the `convert('1')` dither. These are foreign numeric algorithms. The 200 × 200 one-bit frame is an input, with `true` for a pixel that `astype(uint8)` turns into 1.
- The Flask routes, request handling and responses (lines 24-56, 102-107): they only pass data between HTTP and the codec.
- The `requests` calls to the device and the printing of status codes (lines 27, 34, 47, 92-99): they talk to the display over the network and compute nothing.
- All file I/O: timestamped names, `image.save`, and writing the header and reading it back (lines 12-13, 19-20, 69-74, 85-86, 93). The rendered string goes straight to the parser.
- Newline translation in text mode is not modelled. Writing "\n" and reading it back gives "\n" under universal newlines, so the string passed is the one read.
- If `bytearray` raises, the output file has already been opened and truncated. That side effect on the file is not modelled. Only the error is.
- The device base URL (line 22): an address, which affects no byte of the payload.
- Concurrent requests: every request writes and reads the same files `IMG_0001.h` and `IMG_0001.bin` (lines 71-72, 85-89, 93), and `app.run` (line 110) serves requests on threads. Two overlapping requests can therefore upload each other's payload. The model covers one request at a time, so `Codec.DevicePayload` says nothing about interleavings.
- CParse.ParseLiteral: `int` also accepts non-ASCII Unicode decimal digits, such as full-width digits, after the prefix. The model accepts ASCII hex digits only, with single `_` separators. The renderer never writes other digits.
- CParse.ParseLiteral: `int` also accepts sign prefixes and other bases' spellings. These never reach it, because only fields whose stripped text starts with "0X" are kept.
- CParse.Parse: its own contract covers only the missing-brace error. Every other content is covered by `CParse.ParseFields`, which rests on the contracts of `CParse.Keep`, `CParse.ParseAll` and `CParse.ToBytes`; `Codec.RenderParse` states the rendered case.
- Text.Split: its own contract only promises at least one field. The meaning of `split` is stated by `Text.JoinSplit`, `Text.SplitJoin` and `Text.SplitFieldsFree`.

=== FILE: bitpack.dfy ===
/** The monochrome frame and its packing into bytes: numpy's row-major
    `flatten` followed by `packbits` with the default big bit order. */
module BitPack {
  import Seqs
  import opened Bytes

  /** The frame size the image is resized to before conversion to 1 bit. */
  const Width: nat := 200
  const Height: nat := 200

  /** A grid of rows of pixels; `true` is an "on" (white) pixel, which
      `astype(uint8)` turns into 1. */
  type Bitmap = seq<seq<bool>>

  predicate IsFrame(bitmap: Bitmap)
  {
    |bitmap| == Height && Seqs.Rectangular(bitmap, Width)
  }

  function Zeros(n: nat): (z: seq<bool>)
    ensures |z| == n && forall i :: 0 <= i < n ==> !z[i]
  {
    seq(n, _ => false)
  }

  /** `np.packbits`: eight pixels per byte, most significant bit first; a
      last group shorter than eight is padded with zero bits. */
  function Pack(bits: seq<bool>): (bytes: seq<byte>)
    ensures |bytes| == (|bits| + 7) / 8
  {
    if |bits| == 0 then []
    else if |bits| < 8 then [Octet(bits + Zeros(8 - |bits|))]
    else [Octet(bits[..8])] + Pack(bits[8..])
  }

  /** Every bit of the packed bytes: pixel k of byte j is flat pixel 8j + k,
      and the padding past the last pixel is zero. */
  lemma {:induction false} PackBitOrder(bits: seq<bool>)
    ensures forall j, k :: 0 <= j < |Pack(bits)| && 0 <= k < 8 ==>
              MsbBit(Pack(bits)[j], k) == (8 * j + k < |bits| && bits[8 * j + k])
  {
    var bytes := Pack(bits);
    if |bits| == 0 {
    } else if |bits| < 8 {
      var o := bits + Zeros(8 - |bits|);
      forall k | 0 <= k < 8
        ensures MsbBit(bytes[0], k) == (k < |bits| && bits[k])
      {
        assert MsbBit(bytes[0], k) == o[k];
      }
    } else {
      var tail := bits[8..];
      PackBitOrder(tail);
      assert bytes == [Octet(bits[..8])] + Pack(tail);
      forall j, k | 0 <= j < |bytes| && 0 <= k < 8
        ensures MsbBit(bytes[j], k) == (8 * j + k < |bits| && bits[8 * j + k])
      {
        if j == 0 {
          assert MsbBit(bytes[0], k) == bits[..8][k];
        } else {
          assert bytes[j] == Pack(tail)[j - 1];
          assert 8 * (j - 1) + k == 8 * j + k - 8;
          if 8 * j + k < |bits| {
            assert tail[8 * (j - 1) + k] == bits[8 * j + k];
          }
        }
      }
    }
  }

  /** The same fact indexed by flat pixel: bit (7 - i mod 8) of byte i / 8
      is pixel i. */
  lemma PackPixel(bits: seq<bool>)
    ensures forall i :: 0 <= i < |bits| ==> MsbBit(Pack(bits)[i / 8], i % 8) == bits[i]
  {
    forall i | 0 <= i < |bits|
      ensures MsbBit(Pack(bits)[i / 8], i % 8) == bits[i]
    {
      DivEight(i, |bits|);
      PixelInByte(bits, i, i / 8, i % 8);
    }
  }

  /** Pixel `i = 8j + k` is bit `k` of byte `j`. */
  lemma PixelInByte(bits: seq<bool>, i: nat, j: nat, k: nat)
    requires i < |bits| && k < 8 && i == 8 * j + k
    ensures j < |Pack(bits)| && MsbBit(Pack(bits)[j], k) == bits[i]
  {
    PackBitOrder(bits);
  }

  /** Flat pixel `i` of `n` sits in byte `i / 8` at position `i % 8`. */
  lemma DivEight(i: nat, n: nat)
    requires i < n
    ensures 8 * (i / 8) + i % 8 == i && i % 8 < 8 && i / 8 < (n + 7) / 8
  {
  }

  /** `np.unpackbits`: the inverse reading, eight pixels per byte. */
  function Unpack(bytes: seq<byte>): (bits: seq<bool>)
    ensures |bits| == 8 * |bytes|
  {
    if |bytes| == 0 then [] else OctetBits(bytes[0]) + Unpack(bytes[1..])
  }

  /** Unpacking then packing any bytes gives them back. */
  lemma {:induction false} PackUnpack(bytes: seq<byte>)
    ensures Pack(Unpack(bytes)) == bytes
  {
    if |bytes| > 0 {
      var bits := Unpack(bytes);
      var head := OctetBits(bytes[0]);
      assert bits[..8] == head;
      assert bits[8..] == Unpack(bytes[1..]);
      OctetOfBits(bytes[0]);
      PackUnpack(bytes[1..]);
    }
  }

  /** Packing then unpacking gives the pixels back, followed by the zero
      padding of the last byte. */
  lemma {:induction false} UnpackPack(bits: seq<bool>)
    ensures Unpack(Pack(bits)) == bits + Zeros(8 * |Pack(bits)| - |bits|)
  {
    if |bits| == 0 {
      assert bits + Zeros(0) == [];
    } else if |bits| < 8 {
      UnpackShort(bits);
    } else {
      UnpackPack(bits[8..]);
      UnpackStep(bits);
    }
  }

  /** A last group of fewer than eight pixels comes back with its padding. */
  lemma UnpackShort(bits: seq<bool>)
    requires 0 < |bits| < 8
    ensures Unpack(Pack(bits)) == bits + Zeros(8 - |bits|)
  {
    var o := bits + Zeros(8 - |bits|);
    BitsOfOctet(o);
    assert Pack(bits) == [Octet(o)];
    assert Unpack(Pack(bits)) == OctetBits(Octet(o)) + [];
  }

  /** Packing takes the first eight pixels into the first byte and packs
      the rest the same way; both leave the same padding. */
  lemma PackFront(bits: seq<bool>)
    requires |bits| >= 8
    ensures |Pack(bits)| > 0
    ensures Pack(bits)[0] == Octet(bits[..8])
    ensures Pack(bits)[1..] == Pack(bits[8..])
    ensures 8 * |Pack(bits)| - |bits| == 8 * |Pack(bits[8..])| - |bits[8..]|
  {
    assert Pack(bits) == [Octet(bits[..8])] + Pack(bits[8..]);
  }

  /** The first eight pixels come back in front of whatever the rest of
      the pixels come back as. */
  lemma UnpackStep(bits: seq<bool>)
    requires |bits| >= 8
    requires Unpack(Pack(bits[8..])) == bits[8..] + Zeros(8 * |Pack(bits[8..])| - |bits[8..]|)
    ensures Unpack(Pack(bits)) == bits + Zeros(8 * |Pack(bits)| - |bits|)
  {
    var head, tail := bits[..8], bits[8..];
    var packed := Pack(bits);
    var pad := Zeros(8 * |Pack(tail)| - |tail|);
    PackFront(bits);
    BitsOfOctet(head);
    var front, rest := OctetBits(packed[0]), Unpack(packed[1..]);
    assert front == head;
    assert rest == tail + pad;
    assert Unpack(packed) == front + rest;
    assert bits == head + tail;
  }

  /** A 200 x 200 frame packs into exactly 5000 bytes with no padding, and
      pixel (r, c) is pixel (r * 200 + c) mod 8 of byte (r * 200 + c) / 8. */
  lemma FramePacking(bitmap: Bitmap)
    requires IsFrame(bitmap)
    ensures |Pack(Seqs.Flatten(bitmap))| == 5000
    ensures Unpack(Pack(Seqs.Flatten(bitmap))) == Seqs.Flatten(bitmap)
    ensures forall r, c :: 0 <= r < Height && 0 <= c < Width ==>
              MsbBit(Pack(Seqs.Flatten(bitmap))[(r * Width + c) / 8], (r * Width + c) % 8) == bitmap[r][c]
  {
    var flat := Seqs.Flatten(bitmap);
    Seqs.FlattenLength(bitmap, Width);
    assert |flat| == 40000;
    UnpackPack(flat);
    assert flat + Zeros(0) == flat;
    PackPixel(flat);
    forall r, c | 0 <= r < Height && 0 <= c < Width
      ensures MsbBit(Pack(flat)[(r * Width + c) / 8], (r * Width + c) % 8) == bitmap[r][c]
    {
      Seqs.FlattenAt(bitmap, Width, r, c);
    }
  }

  /** A uniform run of whole bytes packs to 0xFF bytes when the pixels are
      on and to 0x00 bytes when they are off. */
  lemma SolidPacking(bits: seq<bool>, on: bool)
    requires |bits| % 8 == 0
    requires forall i :: 0 <= i < |bits| ==> bits[i] == on
    ensures forall j :: 0 <= j < |Pack(bits)| ==> Pack(bits)[j] == if on then 0xFF else 0x00
  {
    PackBitOrder(bits);
    var solid := Fill(on);
    FillBits(on);
    forall j | 0 <= j < |Pack(bits)|
      ensures Pack(bits)[j] == solid
    {
      forall k | 0 <= k < 8
        ensures MsbBit(Pack(bits)[j], k) == MsbBit(solid, k)
      {
        assert 8 * j + k < |bits|;
      }
      BitsDetermineByte(Pack(bits)[j], solid);
    }
  }
}

=== FILE: bytes.dfy ===
/** Bytes as the integers 0 to 255, and their eight bits in the order numpy's
    `packbits` and `unpackbits` use by default: most significant bit first. */
module Bytes {
  newtype byte = x: int | 0 <= x < 256

  function Pow2(n: nat): (p: nat)
    ensures p > 0
  {
    if n == 0 then 1 else 2 * Pow2(n - 1)
  }

  function BitValue(p: bool): (d: nat)
    ensures d < 2
  {
    if p then 1 else 0
  }

  /** The `n` lowest binary digits of `x`, most significant first. */
  function Bits(x: nat, n: nat): (o: seq<bool>)
    ensures |o| == n
  {
    if n == 0 then [] else Bits(x / 2, n - 1) + [x % 2 == 1]
  }

  /** The number a sequence of binary digits spells, most significant
      first; `n` digits spell a number below 2^n. */
  function Value(o: seq<bool>): (v: nat)
    ensures v < Pow2(|o|)
  {
    if |o| == 0 then 0 else 2 * Value(o[..|o| - 1]) + BitValue(o[|o| - 1])
  }

  /** A number below 2^n is spelled by its `n` digits. */
  lemma {:induction false} ValueOfBits(x: nat, n: nat)
    requires x < Pow2(n)
    ensures Value(Bits(x, n)) == x
  {
    if n > 0 {
      var o := Bits(x, n);
      ValueOfBits(x / 2, n - 1);
      assert o[..n - 1] == Bits(x / 2, n - 1);
    }
  }

  /** The digits of the number a digit sequence spells are that sequence. */
  lemma {:induction false} BitsOfValue(o: seq<bool>)
    ensures Bits(Value(o), |o|) == o
  {
    if |o| > 0 {
      var n := |o|;
      var v := Value(o);
      BitsOfValue(o[..n - 1]);
      assert v / 2 == Value(o[..n - 1]);
      assert (v % 2 == 1) == o[n - 1];
      assert o == o[..n - 1] + [o[n - 1]];
    }
  }

  /** The eight pixels of a byte, most significant bit first. */
  function OctetBits(b: byte): (o: seq<bool>)
    ensures |o| == 8
  {
    Bits(b as int, 8)
  }

  /** Pixel `k` of a byte: bit number `7 - k`, that is `(b >> (7 - k)) & 1`. */
  function MsbBit(b: byte, k: nat): bool
    requires k < 8
  {
    OctetBits(b)[k]
  }

  /** Eight pixels as one byte, the first pixel in the most significant bit. */
  function Octet(o: seq<bool>): (b: byte)
    requires |o| == 8
    ensures forall k :: 0 <= k < 8 ==> MsbBit(b, k) == o[k]
  {
    assert Pow2(8) == 256;
    BitsOfValue(o);
    Value(o) as byte
  }

  /** A byte is determined by its eight bits. */
  lemma BitsDetermineByte(a: byte, b: byte)
    requires forall k :: 0 <= k < 8 ==> MsbBit(a, k) == MsbBit(b, k)
    ensures a == b
  {
    assert Pow2(8) == 256;
    forall k | 0 <= k < 8
      ensures OctetBits(a)[k] == OctetBits(b)[k]
    {
      assert MsbBit(a, k) == MsbBit(b, k);
    }
    assert OctetBits(a) == OctetBits(b);
    ValueOfBits(a as int, 8);
    ValueOfBits(b as int, 8);
  }

  /** Reading a byte's bits and reassembling them gives the byte back. */
  lemma OctetOfBits(b: byte)
    ensures Octet(OctetBits(b)) == b
  {
    BitsDetermineByte(Octet(OctetBits(b)), b);
  }

  /** Assembling eight pixels into a byte and reading its bits gives the
      pixels back. */
  lemma BitsOfOctet(o: seq<bool>)
    requires |o| == 8
    ensures OctetBits(Octet(o)) == o
  {
    var b := Octet(o);
    forall k | 0 <= k < 8
      ensures OctetBits(b)[k] == o[k]
    {
      assert MsbBit(b, k) == o[k];
    }
  }

  /** The byte whose eight pixels are all `on`. */
  function Fill(on: bool): byte
  {
    if on then 0xFF else 0x00
  }

  /** All bits of 0xFF are set and all bits of 0x00 are clear. */
  lemma FillBits(on: bool)
    ensures forall k :: 0 <= k < 8 ==> MsbBit(Fill(on), k) == on
  {
    if on {
      assert AllOnes(8) == 0xFF;
      OnesBits(8);
    } else {
      ZeroBits(8);
    }
  }

  /** 2^n - 1, the largest number of `n` binary digits. */
  function AllOnes(n: nat): nat
  {
    Pow2(n) - 1
  }

  /** Every digit of 2^n - 1 is a one. */
  lemma {:induction false} OnesBits(n: nat)
    ensures forall k :: 0 <= k < n ==> Bits(AllOnes(n), n)[k]
  {
    if n > 0 {
      OnesBits(n - 1);
      assert AllOnes(n) / 2 == AllOnes(n - 1);
      assert AllOnes(n) % 2 == 1;
    }
  }

  /** Every digit of 0 is a zero. */
  lemma {:induction false} ZeroBits(n: nat)
    ensures forall k :: 0 <= k < n ==> !Bits(0, n)[k]
  {
    if n > 0 {
      ZeroBits(n - 1);
    }
  }
}

=== FILE: carray.dfy ===
/** Rendering packed bytes as the C array declaration the firmware build
    expects: `0X..` tokens, sixteen per line, inside a fixed declaration. */
module CArray {
  import opened Text
  import Seqs
  import Hex
  import opened Bytes

  /** Tokens per line. */
  const LineWidth: nat := 16

  /** The declaration text in front of the opening brace. */
  const Declaration: string := "const unsigned char IMAGE_BLACK[] PROGMEM = "

  /** The token for one byte, as `str.format` writes it with a two-digit
      upper-case hex field: "0X", then two upper-case hex digits whose
      value is `b`. */
  function Token(b: byte): (t: string)
    ensures |t| == 4 && t[..2] == "0X"
    ensures Hex.IsHexDigit(t[2]) && Hex.IsHexDigit(t[3])
    ensures !('a' <= t[2] <= 'f') && !('a' <= t[3] <= 'f')
    ensures 16 * Hex.DigitValue(t[2]) + Hex.DigitValue(t[3]) == b as int
  {
    "0X" + [Hex.UpperDigit(b as int / 16), Hex.UpperDigit(b as int % 16)]
  }

  /** One token per byte, in order; token `k` spells byte `k` in hex. */
  function Tokens(bytes: seq<byte>): (ts: seq<string>)
    ensures |ts| == |bytes|
    ensures forall k :: 0 <= k < |bytes| ==>
              && |ts[k]| == 4 && ts[k][..2] == "0X"
              && Hex.IsHexDigit(ts[k][2]) && Hex.IsHexDigit(ts[k][3])
              && 16 * Hex.DigitValue(ts[k][2]) + Hex.DigitValue(ts[k][3]) == bytes[k] as int
  {
    seq(|bytes|, k requires 0 <= k < |bytes| => Token(bytes[k]))
  }

  /** The tokens cut into consecutive chunks of sixteen: there are
      ceil(n / 16) of them, all full but possibly the last, none empty, and
      together they are the tokens in order. */
  function Lines(tokens: seq<string>): (lines: seq<seq<string>>)
    ensures |lines| == (|tokens| + LineWidth - 1) / LineWidth
    ensures Seqs.Flatten(lines) == tokens
    ensures forall i :: 0 <= i < |lines| ==> 0 < |lines[i]| <= LineWidth
    ensures forall i :: 0 <= i < |lines| - 1 ==> |lines[i]| == LineWidth
    decreases |tokens|
  {
    if |tokens| == 0 then []
    else if |tokens| <= LineWidth then [tokens]
    else
      var rest := Lines(tokens[LineWidth..]);
      assert tokens == tokens[..LineWidth] + tokens[LineWidth..];
      [tokens[..LineWidth]] + rest
  }

  function Min(a: int, b: int): int
  {
    if a < b then a else b
  }

  /** Line `i` is exactly the slice `tokens[16 * i : 16 * i + 16]`. */
  lemma LinesAreSlices(tokens: seq<string>)
    ensures forall i :: 0 <= i < |Lines(tokens)| ==>
              16 * i <= Min(16 * i + 16, |tokens|) <= |tokens| &&
              Lines(tokens)[i] == tokens[16 * i .. Min(16 * i + 16, |tokens|)]
  {
    forall i | 0 <= i < |Lines(tokens)|
      ensures 16 * i <= Min(16 * i + 16, |tokens|) <= |tokens|
      ensures Lines(tokens)[i] == tokens[16 * i .. Min(16 * i + 16, |tokens|)]
    {
      LineSlice(tokens, i);
    }
  }

  lemma {:induction false} LineSlice(tokens: seq<string>, i: nat)
    requires i < |Lines(tokens)|
    ensures 16 * i <= Min(16 * i + 16, |tokens|) <= |tokens|
    ensures Lines(tokens)[i] == tokens[16 * i .. Min(16 * i + 16, |tokens|)]
  {
    if i > 0 {
      var tail := tokens[LineWidth..];
      assert Lines(tokens)[i] == Lines(tail)[i - 1];
      LineSlice(tail, i - 1);
      var lo, hi := 16 * (i - 1), Min(16 * (i - 1) + 16, |tail|);
      assert 16 + hi == Min(16 * i + 16, |tokens|);
      Seqs.SliceOfSuffix(tokens, 16, lo, hi);
    } else if |tokens| > LineWidth {
      assert Lines(tokens)[0] == tokens[..LineWidth];
    }
  }

  /** Each line's tokens joined by ", ". */
  function LineTexts(lines: seq<seq<string>>): seq<string>
  {
    seq(|lines|, i requires 0 <= i < |lines| => Join(lines[i], ", "))
  }

  /** The array body: the lines joined by ",\n". */
  function Body(bytes: seq<byte>): string
  {
    Join(LineTexts(Lines(Tokens(bytes))), ",\n")
  }

  /** The text between the braces: the body on lines of its own. */
  function Inner(bytes: seq<byte>): string
  {
    "\n" + Body(bytes) + "\n"
  }

  /** The whole header file text. */
  function Render(bytes: seq<byte>): string
  {
    Declaration + "{" + Inner(bytes) + "};"
  }

  /** The header text is the declaration, the inner text in braces, and a
      semicolon; the declaration holds no opening brace and the inner text
      no closing brace. */
  lemma RenderShape(bytes: seq<byte>)
    ensures Render(bytes) == Declaration + "{" + Inner(bytes) + "}" + ";"
    ensures '{' !in Declaration && '}' !in Inner(bytes)
  {
    assert "};" == "}" + ";";
    NoBraceDeclared();
    BodyFree(bytes, '}');
  }

  lemma NoBraceDeclared()
    ensures '{' !in Declaration
  {
  }

  /** The whitespace that precedes token `k` once the body is split at its
      commas: nothing for the first token, a newline for the first token of
      every later line, a space otherwise. */
  function Lead(k: nat): string
  {
    if k == 0 then "" else if k % LineWidth == 0 then "\n" else " "
  }

  lemma LeadPeriodic(k: nat)
    requires k > 0
    ensures Lead(k + LineWidth) == Lead(k)
  {
    assert (k + 16) % 16 == k % 16;
  }

  /** The fields of one line after splitting: its tokens, every one but
      the first behind the space of ", ". */
  function Spaced(tokens: seq<string>): (fields: seq<string>)
    ensures |fields| == |tokens|
  {
    seq(|tokens|, k requires 0 <= k < |tokens| => (if k == 0 then "" else " ") + tokens[k])
  }

  /** Splitting one line at its commas gives its tokens, every one but the
      first preceded by the space of ", ". */
  lemma {:induction false} LineFields(tokens: seq<string>)
    requires |tokens| >= 1
    requires forall k :: 0 <= k < |tokens| ==> ',' !in tokens[k]
    ensures Split(Join(tokens, ", "), ',') == Spaced(tokens)
  {
    if |tokens| == 1 {
      SplitFree(tokens[0], ',');
      assert Spaced(tokens)[0] == tokens[0];
    } else {
      LineFields(tokens[1..]);
      LineFieldsStep(tokens);
    }
  }

  /** One more token in front of a line adds its field in front. */
  lemma LineFieldsStep(tokens: seq<string>)
    requires |tokens| >= 2
    requires ',' !in tokens[0]
    requires Split(Join(tokens[1..], ", "), ',') == Spaced(tokens[1..])
    ensures Split(Join(tokens, ", "), ',') == Spaced(tokens)
  {
    var j := Join(tokens[1..], ", ");
    SplitBehindComma(tokens[0], ", ", j);
    RegroupSpaced(tokens, Split(j, ','));
  }

  /** A comma-free field, then a separator made of a comma and whitespace
      `sep[1..]`, then `j`: the field comes first, and the whitespace joins
      the first field of `j`. */
  lemma SplitBehindComma(t: string, sep: string, j: string)
    requires ',' !in t
    requires |sep| >= 1 && sep[0] == ',' && ',' !in sep[1..]
    ensures Split(t + sep + j, ',') == [t] + ([sep[1..] + Split(j, ',')[0]] + Split(j, ',')[1..])
  {
    var w := sep[1..];
    assert t + sep + j == t + [','] + (w + j) by {
      assert sep == [','] + w;
    }
    SplitAtComma(t, w, j);
  }

  lemma SplitAtComma(t: string, w: string, j: string)
    requires ',' !in t && ',' !in w
    ensures Split(t + [','] + (w + j), ',') == [t] + ([w + Split(j, ',')[0]] + Split(j, ',')[1..])
  {
    SplitAround(t, ',', w + j);
    SplitFree(t, ',');
    SplitPrepend(w, ',', j);
  }

  /** The first token, then the space-led fields of the rest, the first of
      them now behind a space too, are the fields of the whole line. */
  lemma RegroupSpaced(tokens: seq<string>, g: seq<string>)
    requires |tokens| >= 2
    requires g == Spaced(tokens[1..])
    ensures [tokens[0]] + ([" " + g[0]] + g[1..]) == Spaced(tokens)
  {
    var got := [tokens[0]] + ([" " + g[0]] + g[1..]);
    var want := Spaced(tokens);
    assert g[0] == tokens[1];
    forall k | 0 <= k < |want|
      ensures got[k] == want[k]
    {
      if k >= 2 {
        assert got[k] == g[k - 1];
      }
    }
  }

  /** The tokens, each behind its `Lead`: the fields the body splits into. */
  function Led(tokens: seq<string>): (fields: seq<string>)
    ensures |fields| == |tokens|
    ensures forall k :: 0 <= k < |tokens| ==> fields[k] == Lead(k) + tokens[k]
  {
    seq(|tokens|, k requires 0 <= k < |tokens| => Lead(k) + tokens[k])
  }

  /** Splitting the joined lines at their commas gives every token, preceded
      by its `Lead`: the ", " inside a line leaves a space, the ",\n"
      between lines leaves a newline. */
  lemma {:induction false} LinesFields(tokens: seq<string>)
    requires |tokens| >= 1
    requires forall k :: 0 <= k < |tokens| ==> ',' !in tokens[k]
    ensures Split(Join(LineTexts(Lines(tokens)), ",\n"), ',') == Led(tokens)
    decreases |tokens|
  {
    if |tokens| <= LineWidth {
      assert LineTexts(Lines(tokens)) == [Join(tokens, ", ")];
      LineFields(tokens);
      assert Led(tokens) == Spaced(tokens);
    } else {
      LinesFields(tokens[LineWidth..]);
      LinesFieldsStep(tokens);
    }
  }

  /** The first line's fields, then the later lines' fields. */
  lemma LinesFieldsStep(tokens: seq<string>)
    requires |tokens| > LineWidth
    requires forall k :: 0 <= k < |tokens| ==> ',' !in tokens[k]
    requires Split(Join(LineTexts(Lines(tokens[LineWidth..])), ",\n"), ',') == Led(tokens[LineWidth..])
    ensures Split(Join(LineTexts(Lines(tokens)), ",\n"), ',') == Led(tokens)
  {
    var head, tail := tokens[..LineWidth], tokens[LineWidth..];
    var first := Join(head, ", ");
    var j := Join(LineTexts(Lines(tail)), ",\n");
    FirstLineText(tokens);
    LineFields(head);
    SplitAtLineBreak(first, j);
    RegroupFields(tokens, Split(first, ','), Split(j, ','));
  }

  /** The text of the lines is the first line, ",\n", then the later lines. */
  lemma FirstLineText(tokens: seq<string>)
    requires |tokens| > LineWidth
    ensures Join(LineTexts(Lines(tokens)), ",\n") ==
            Join(tokens[..LineWidth], ", ") + [','] + ("\n" + Join(LineTexts(Lines(tokens[LineWidth..])), ",\n"))
  {
    var head, tail := tokens[..LineWidth], tokens[LineWidth..];
    var rest := Lines(tail);
    assert Lines(tokens) == [head] + rest;
    LineTextsCons(head, rest);
    var first, j := Join(head, ", "), Join(LineTexts(rest), ",\n");
    Text.JoinCons(first, LineTexts(rest), ",\n");
    CommaNewline(first, j);
  }

  /** The separator ",\n" is a comma followed by a newline. */
  lemma CommaNewline(a: string, b: string)
    ensures a + ",\n" + b == a + [','] + ("\n" + b)
  {
    assert ",\n" == [','] + "\n";
  }

  lemma LineTextsCons(line: seq<string>, rest: seq<seq<string>>)
    ensures LineTexts([line] + rest) == [Join(line, ", ")] + LineTexts(rest)
  {
  }

  /** Splitting at the comma of ",\n": the newline joins the first field
      of the later text. */
  lemma SplitAtLineBreak(a: string, b: string)
    ensures Split(a + [','] + ("\n" + b), ',') ==
            Split(a, ',') + ([("\n" + Split(b, ',')[0])] + Split(b, ',')[1..])
  {
    SplitAround(a, ',', "\n" + b);
    SplitPrepend("\n", ',', b);
  }

  /** The fields of the first line followed by the fields of the later
      lines, the first of them behind the newline of ",\n". */
  lemma RegroupFields(tokens: seq<string>, f: seq<string>, g: seq<string>)
    requires |tokens| > LineWidth
    requires f == Spaced(tokens[..LineWidth])
    requires g == Led(tokens[LineWidth..])
    ensures f + ([("\n" + g[0])] + g[1..]) == Led(tokens)
  {
    var want := Led(tokens);
    var later := [("\n" + g[0])] + g[1..];
    var got := f + later;
    assert |got| == |want|;
    forall k | 0 <= k < |want|
      ensures got[k] == want[k]
    {
      if k < LineWidth {
        FirstLineLed(tokens, f, later, k);
      } else {
        LaterLineLed(tokens, f, g, k);
      }
    }
  }

  /** A field of the first line is its token behind its `Lead`. */
  lemma FirstLineLed(tokens: seq<string>, f: seq<string>, later: seq<string>, k: nat)
    requires |tokens| > LineWidth && k < LineWidth
    requires f == Spaced(tokens[..LineWidth])
    ensures (f + later)[k] == Led(tokens)[k]
  {
    assert k % LineWidth == k;
  }

  /** A field of the later lines is its token behind its `Lead`, counted
      from the start of the body; the first of them gains the newline. */
  lemma LaterLineLed(tokens: seq<string>, f: seq<string>, g: seq<string>, k: nat)
    requires LineWidth <= k < |tokens|
    requires f == Spaced(tokens[..LineWidth])
    requires g == Led(tokens[LineWidth..])
    ensures (f + ([("\n" + g[0])] + g[1..]))[k] == Led(tokens)[k]
  {
    var m := k - LineWidth;
    if m > 0 {
      LeadPeriodic(m);
      assert (f + ([("\n" + g[0])] + g[1..]))[k] == g[m];
    } else {
      assert g[0] == "" + tokens[LineWidth];
    }
  }

  /** The body, split at its commas, is one field per byte: the byte's token
      preceded by its `Lead`. So there are n - 1 commas and none trails. */
  lemma BodyFields(bytes: seq<byte>)
    requires |bytes| >= 1
    ensures var fs := Split(Body(bytes), ',');
            |fs| == |bytes| && forall k :: 0 <= k < |bytes| ==> fs[k] == Lead(k) + Token(bytes[k])
  {
    var tokens := Tokens(bytes);
    forall k | 0 <= k < |tokens|
      ensures ',' !in tokens[k]
    {
      var t := tokens[k];
      assert t == Token(bytes[k]);
      assert t == [t[0], t[1], t[2], t[3]];
    }
    LinesFields(tokens);
  }

  /** A character that no token can hold: not the prefix's letters, not a
      hex digit. */
  predicate Foreign(ch: char)
  {
    ch != 'X' && !Hex.IsHexDigit(ch)
  }

  lemma TokenFree(b: byte, ch: char)
    requires Foreign(ch)
    ensures ch !in Token(b)
  {
    var t := Token(b);
    assert t == [t[0], t[1], t[2], t[3]];
  }

  /** A character that is in no token and in neither separator is nowhere
      in the body. */
  lemma BodyFree(bytes: seq<byte>, ch: char)
    requires Foreign(ch) && ch != ',' && ch != ' ' && ch != '\n'
    ensures ch !in Body(bytes)
  {
    var tokens := Tokens(bytes);
    forall k | 0 <= k < |tokens|
      ensures ch !in tokens[k]
    {
      TokenFree(bytes[k], ch);
    }
    var lines := Lines(tokens);
    forall i | 0 <= i < |lines|
      ensures ch !in LineTexts(lines)[i]
    {
      LineFree(tokens, i, ch);
    }
    JoinFree(LineTexts(lines), ",\n", ch);
  }

  /** A character in no token and not in ", " is not in any line's text. */
  lemma LineFree(tokens: seq<string>, i: nat, ch: char)
    requires forall k :: 0 <= k < |tokens| ==> ch !in tokens[k]
    requires ch != ',' && ch != ' ' && i < |Lines(tokens)|
    ensures ch !in Join(Lines(tokens)[i], ", ")
  {
    var line := Lines(tokens)[i];
    LineSlice(tokens, i);
    forall m | 0 <= m < |line|
      ensures ch !in line[m]
    {
      assert line[m] == tokens[16 * i + m];
    }
    JoinFree(line, ", ", ch);
  }
}

=== FILE: codec.dfy ===
/** The bitmap-to-payload chain of the image route: pack the frame, render
    it as a C array, parse the array back into the payload bytes. */
module Codec {
  import opened Results
  import opened Text
  import Seqs
  import Hex
  import opened Bytes
  import BitPack
  import CArray
  import CParse

  /** A rendered token, with whitespace on either side, is a kept field and
      `int(_, 16)` reads it back as the byte it was rendered from. */
  lemma TokenLiteral(w1: string, b: byte, w2: string)
    requires AllIntSpace(w1) && AllIntSpace(w2)
    ensures CParse.IsKept(w1 + CArray.Token(b) + w2)
    ensures CParse.ParseLiteral(w1 + CArray.Token(b) + w2) == Ok(b as int)
  {
    CParse.HexLiteral(w1, CArray.Token(b), w2, b as int);
  }

  /** Whitespace in front of field `k` of the array text: the newline after
      the opening brace for the first field, the token's `Lead` otherwise. */
  function Before(k: nat): string
  {
    if k == 0 then "\n" else CArray.Lead(k)
  }

  /** Whitespace after field `k`: the newline before the closing brace for
      the last field, nothing otherwise. */
  function After(k: nat, n: nat): string
  {
    if k == n - 1 then "\n" else ""
  }

  /** Splitting the text between the braces at its commas gives one field
      per byte: the byte's token with whitespace on either side. */
  lemma ArrayFields(bytes: seq<byte>)
    requires |bytes| >= 1
    ensures var fs := Split("\n" + CArray.Body(bytes) + "\n", ',');
            && |fs| == |bytes|
            && forall k :: 0 <= k < |bytes| ==>
                 fs[k] == Before(k) + CArray.Token(bytes[k]) + After(k, |bytes|)
  {
    var n := |bytes|;
    var body := CArray.Body(bytes);
    CArray.BodyFields(bytes);
    var f := Split(body, ',');
    SplitFramed("\n", body, "\n", ',');
    var fs := Split("\n" + body + "\n", ',');
    forall k | 0 <= k < n
      ensures fs[k] == Before(k) + CArray.Token(bytes[k]) + After(k, n)
    {
      FramedField(k, n, CArray.Token(bytes[k]), f[k]);
    }
  }

  /** Field `k` of the framed body, from its field in the bare body. */
  lemma FramedField(k: nat, n: nat, t: string, field: string)
    requires k < n && field == CArray.Lead(k) + t
    ensures (if k == 0 then "\n" else "") + field + (if k == n - 1 then "\n" else "") ==
            Before(k) + t + After(k, n)
  {
    if k == 0 {
      assert field == t;
    }
  }

  /** The parser finds the rendered array text between the braces. */
  lemma FindsInner(bytes: seq<byte>)
    ensures CParse.ArrayText(CArray.Render(bytes)) == Some(CArray.Inner(bytes))
  {
    CArray.RenderShape(bytes);
    CParse.ArrayTextBetween(CArray.Declaration, CArray.Inner(bytes), ";");
  }

  lemma EmptyBody(bytes: seq<byte>)
    requires |bytes| == 0
    ensures CArray.Inner(bytes) == "\n\n"
  {
    assert CArray.Tokens(bytes) == [];
    assert CArray.LineTexts(CArray.Lines([])) == [];
  }

  /** An empty array has one field, all whitespace, which is dropped. */
  lemma EmptyValues(bytes: seq<byte>)
    requires |bytes| == 0
    ensures CParse.ParseAll(CParse.Keep(Split(CArray.Inner(bytes), ','))) == Ok([])
  {
    var inner := CArray.Inner(bytes);
    EmptyBody(bytes);
    SplitFree(inner, ',');
    assert Split(inner, ',') == [inner];
    assert !CParse.IsKept(inner) by {
      assert AllSpace(inner);
      assert Strip(inner) == [];
    }
    assert CParse.Keep([inner]) == [];
    assert CParse.ParseAll([]) == Collect([]);
  }

  /** Every field of the array text is kept and read back as its byte. */
  lemma InnerValues(bytes: seq<byte>)
    ensures CParse.ParseAll(CParse.Keep(Split(CArray.Inner(bytes), ','))) ==
            Ok(seq(|bytes|, k requires 0 <= k < |bytes| => bytes[k] as int))
  {
    var n := |bytes|;
    var inner := CArray.Inner(bytes);
    var fields := Split(inner, ',');
    var values: seq<nat> := seq(n, k requires 0 <= k < n => bytes[k] as int);
    if n == 0 {
      EmptyValues(bytes);
      assert values == [];
    } else {
      ArrayFields(bytes);
      forall k | 0 <= k < n
        ensures CParse.IsKept(fields[k])
        ensures CParse.ParseLiteral(fields[k]) == Ok(values[k])
      {
        TokenLiteral(Before(k), bytes[k], After(k, n));
      }
      CParse.ParseAllOk(fields, values);
    }
  }

  /** Byte values read back from their tokens form the bytes again. */
  lemma BytesBack(bytes: seq<byte>)
    ensures CParse.ToBytes(seq(|bytes|, k requires 0 <= k < |bytes| => bytes[k] as int)) == Ok(bytes)
  {
    var values := seq(|bytes|, k requires 0 <= k < |bytes| => bytes[k] as int);
    var r := CParse.ToBytes(values);
    assert r.Ok?;
    assert r.value == bytes;
  }

  /** Parsing the rendered C array of any bytes gives back exactly those
      bytes: the header file is a lossless carrier for the payload. */
  lemma RenderParse(bytes: seq<byte>)
    ensures CParse.Parse(CArray.Render(bytes)) == Ok(bytes)
  {
    FindsInner(bytes);
    InnerValues(bytes);
    BytesBack(bytes);
  }

  /** The payload one request of the image route writes to the .bin file
      and uploads: the frame packed into bytes, rendered as a C array, and
      parsed back. It is exactly the packed frame; for a 200 x 200 frame
      that is 5000 bytes whose bits are the pixels in row-major order. */
  function DevicePayload(bitmap: BitPack.Bitmap): (r: Result<seq<byte>, CParse.ParseError>)
    ensures r == Ok(BitPack.Pack(Seqs.Flatten(bitmap)))
    ensures BitPack.IsFrame(bitmap) ==>
              && |r.value| == 5000
              && BitPack.Unpack(r.value) == Seqs.Flatten(bitmap)
  {
    var packed := BitPack.Pack(Seqs.Flatten(bitmap));
    RenderParse(packed);
    assert BitPack.IsFrame(bitmap) ==> |packed| == 5000 && BitPack.Unpack(packed) == Seqs.Flatten(bitmap) by {
      if BitPack.IsFrame(bitmap) {
        BitPack.FramePacking(bitmap);
      }
    }
    CParse.Parse(CArray.Render(packed))
  }

  /** A frame of one colour reaches the device as 5000 bytes of 0xFF when
      every pixel is on (white) and 5000 bytes of 0x00 when every pixel is
      off (black). */
  lemma SolidFramePayload(bitmap: BitPack.Bitmap, on: bool)
    requires BitPack.IsFrame(bitmap)
    requires forall r, c :: 0 <= r < BitPack.Height && 0 <= c < BitPack.Width ==> bitmap[r][c] == on
    ensures var payload := DevicePayload(bitmap).value;
            && |payload| == 5000
            && forall j :: 0 <= j < 5000 ==> payload[j] == if on then 0xFF else 0x00
  {
    var flat := Seqs.Flatten(bitmap);
    Seqs.FlattenLength(bitmap, BitPack.Width);
    forall i | 0 <= i < |flat|
      ensures flat[i] == on
    {
      var r, c := i / BitPack.Width, i % BitPack.Width;
      Seqs.FlattenAt(bitmap, BitPack.Width, r, c);
    }
    BitPack.SolidPacking(flat, on);
  }
}

=== FILE: cparse.dfy ===
/** Reading the C array back into bytes, as `convert_h_to_bin` does: take
    the text between the first '{' and the next '}', split it at commas,
    keep the fields that start with "0X" once stripped, read each one as a
    base-16 integer, and turn the integers into bytes. */
module CParse {
  import opened Results
  import opened Text
  import Seqs
  import Hex
  import opened Bytes

  /** The exceptions the parser can raise. */
  datatype ParseError =
    | MissingOpenBrace         // `split('{', 1)` left no element at index 1
    | InvalidLiteral(field: string)  // `int(field, 16)` rejected a kept field
    | ByteOutOfRange(value: nat)     // `bytearray` got a value above 255

  /** The array's text: what follows the first '{' and precedes the next
      '}', or runs to the end when no '}' follows; there is none when the
      content has no '{' at all (two `str.split` calls with maxsplit 1). */
  function ArrayText(content: string): (r: Option<string>)
    ensures r.None? <==> '{' !in content
    ensures r.Some? ==> '}' !in r.value
  {
    match FirstIndex(content, '{')
    case None => None
    case Some(i) =>
      var rest := content[i + 1..];
      match FirstIndex(rest, '}')
      case None => Some(rest)
      case Some(j) => Some(rest[..j])
  }

  /** With no '{' in front of it, the brace after `a` is the first one. */
  lemma FirstBraceAfter(a: string, rest: string)
    requires '{' !in a
    ensures FirstIndex(a + "{" + rest, '{') == Some(|a|)
    ensures (a + "{" + rest)[|a| + 1..] == rest
  {
    var s := a + "{" + rest;
    assert s[..|a|] == a;
    FirstIndexAt(s, '{', |a|);
  }

  /** Whatever surrounds them, the text between the first '{' and the next
      '}' is what `ArrayText` returns; with no '}' it runs to the end. */
  lemma ArrayTextBetween(a: string, b: string, c: string)
    requires '{' !in a && '}' !in b
    ensures ArrayText(a + "{" + b + "}" + c) == Some(b)
    ensures ArrayText(a + "{" + b) == Some(b)
  {
    var rest := b + "}" + c;
    assert a + "{" + b + "}" + c == a + "{" + rest;
    FirstBraceAfter(a, rest);
    assert rest[..|b|] == b;
    FirstIndexAt(rest, '}', |b|);
    FirstBraceAfter(a, b);
  }

  /** The filter of the comprehension: the stripped field starts with "0X". */
  predicate IsKept(field: string)
  {
    StartsWith(Strip(field), "0X")
  }

  /** A field without surrounding whitespace is kept exactly when it
      begins with the upper-case prefix. */
  lemma SolidKept(field: string)
    requires Solid(field)
    ensures IsKept(field) <==> |field| >= 2 && field[..2] == "0X"
  {
    StripSolid(field);
    var s := Strip(field);
    assert s == field;
    if IsKept(field) {
      assert StartsWith(field, "0X");
    } else {
      assert !StartsWith(field, "0X");
    }
  }

  /** The fields the comprehension keeps, in order: only kept fields, all
      of them when every field is kept, none when no field is. */
  function Keep(fields: seq<string>): (r: seq<string>)
    ensures |r| <= |fields|
    ensures AllKept(r)
    ensures AllKept(fields) ==> r == fields
    ensures (forall k :: 0 <= k < |fields| ==> !IsKept(fields[k])) ==> r == []
  {
    Seqs.Filter(fields, IsKept)
  }

  /** The digits after the "0X" prefix, as `int(_, 16)` reads them: hex
      digits of either case, each optionally preceded by a single '_'. */
  function DigitRun(s: string): (r: Option<seq<nat>>)
    ensures r.Some? ==> (|r.value| == 0 <==> |s| == 0)
    ensures r.Some? ==> forall k :: 0 <= k < |r.value| ==> r.value[k] < 16
  {
    if |s| == 0 then Some([])
    else if Hex.IsHexDigit(s[0]) then Prepend(Hex.DigitValue(s[0]), DigitRun(s[1..]))
    else if s[0] == '_' && |s| >= 2 && Hex.IsHexDigit(s[1]) then Prepend(Hex.DigitValue(s[1]), DigitRun(s[2..]))
    else None
  }

  function Prepend(d: nat, rest: Option<seq<nat>>): (r: Option<seq<nat>>)
    ensures r.Some? <==> rest.Some?
    ensures r.Some? ==> r.value == [d] + rest.value
  {
    match rest
    case None => None
    case Some(ds) => Some([d] + ds)
  }

  /** Two plain digits are read as the two-digit number they spell. */
  lemma TwoDigits(c1: char, c2: char)
    requires Hex.IsHexDigit(c1) && Hex.IsHexDigit(c2)
    ensures DigitRun([c1, c2]) == Some([Hex.DigitValue(c1), Hex.DigitValue(c2)])
    ensures HexNumber([Hex.DigitValue(c1), Hex.DigitValue(c2)]) == 16 * Hex.DigitValue(c1) + Hex.DigitValue(c2)
  {
    var hi, lo := Hex.DigitValue(c1), Hex.DigitValue(c2);
    assert [c1, c2][1..] == [c2];
    assert [c2][1..] == [];
    assert [lo] + [] == [lo] && [hi] + [lo] == [hi, lo];
    assert DigitRun([c2]) == Prepend(lo, DigitRun([])) == Some([lo]);
    assert DigitRun([c1, c2]) == Prepend(hi, DigitRun([c2])) == Some([hi, lo]);
    assert [hi, lo][..1] == [hi];
    assert [hi][..0] == [];
  }

  function Pow16(n: nat): nat
  {
    if n == 0 then 1 else 16 * Pow16(n - 1)
  }

  /** The value of a digit sequence, most significant digit first; `n`
      digits make a number below 16^n. */
  function HexNumber(ds: seq<nat>): (v: nat)
    requires forall k :: 0 <= k < |ds| ==> ds[k] < 16
    ensures v < Pow16(|ds|)
  {
    if |ds| == 0 then 0 else HexNumber(ds[..|ds| - 1]) * 16 + ds[|ds| - 1]
  }

  /** Character `i` of a digit run is a digit, or a '_' with a digit right
      behind it. */
  predicate RunChar(s: string, i: nat)
    requires i < |s|
  {
    Hex.IsHexDigit(s[i]) || (s[i] == '_' && i + 1 < |s| && Hex.IsHexDigit(s[i + 1]))
  }

  /** The digit runs `int(_, 16)` accepts after its prefix: digits, where
      a single '_' may stand before any digit. */
  predicate ValidRun(s: string)
  {
    forall i: nat :: i < |s| ==> RunChar(s, i)
  }

  /** A run is valid when its first character is and the rest is. */
  lemma ValidRunUnfold(s: string)
    requires |s| >= 1
    ensures ValidRun(s) <==> RunChar(s, 0) && ValidRun(s[1..])
  {
    var t := s[1..];
    forall i: nat | i < |t|
      ensures RunChar(t, i) == RunChar(s, i + 1)
    {
      assert t[i] == s[i + 1];
      if i + 1 < |t| {
        assert t[i + 1] == s[i + 2];
      }
    }
    if RunChar(s, 0) && ValidRun(t) {
      forall i: nat | i < |s|
        ensures RunChar(s, i)
      {
        if i > 0 {
          assert RunChar(t, i - 1);
        }
      }
    }
  }

  /** `DigitRun` accepts exactly the valid runs. */
  lemma {:induction false} DigitRunGrammar(s: string)
    ensures DigitRun(s).Some? <==> ValidRun(s)
    decreases |s|
  {
    if |s| > 0 {
      ValidRunUnfold(s);
      if Hex.IsHexDigit(s[0]) {
        DigitRunGrammar(s[1..]);
      } else if s[0] == '_' && |s| >= 2 && Hex.IsHexDigit(s[1]) {
        DigitRunGrammar(s[2..]);
        ValidRunUnfold(s[1..]);
        assert s[1..][0] == s[1];
        assert s[1..][1..] == s[2..];
      }
    }
  }

  /** The values of a sequence of digits, in order. */
  function DigitValues(d: string): (vs: seq<nat>)
    requires forall k :: 0 <= k < |d| ==> Hex.IsHexDigit(d[k])
    ensures |vs| == |d|
    ensures forall k :: 0 <= k < |d| ==> vs[k] == Hex.DigitValue(d[k])
  {
    if |d| == 0 then [] else [Hex.DigitValue(d[0])] + DigitValues(d[1..])
  }

  /** The values a valid run yields are those of its digits, with every
      '_' left out. */
  lemma {:induction false} DigitRunValues(s: string)
    requires ValidRun(s)
    ensures DigitRun(s) == Some(DigitValues(Seqs.Filter(s, Hex.IsHexDigit)))
    decreases |s|
  {
    if |s| > 0 {
      ValidRunUnfold(s);
      if Hex.IsHexDigit(s[0]) {
        DigitRunValues(s[1..]);
        var d := Seqs.Filter(s[1..], Hex.IsHexDigit);
        assert Seqs.Filter(s, Hex.IsHexDigit) == [s[0]] + d;
        assert ([s[0]] + d)[1..] == d;
      } else {
        var t := s[1..];
        ValidRunUnfold(t);
        assert t[0] == s[1] && t[1..] == s[2..];
        DigitRunValues(s[2..]);
        var d := Seqs.Filter(s[2..], Hex.IsHexDigit);
        assert Seqs.Filter(t, Hex.IsHexDigit) == [s[1]] + d;
        assert Seqs.Filter(s, Hex.IsHexDigit) == [s[1]] + d;
        assert ([s[1]] + d)[1..] == d;
      }
    }
  }

  /** A valid run holds no information separator. */
  lemma ValidRunClean(s: string)
    requires ValidRun(s)
    ensures !HoldsInfoSeparator(s)
  {
    forall i | 0 <= i < |s|
      ensures !IsInfoSeparator(s[i])
    {
      assert RunChar(s, i);
    }
  }

  /** The `n` lowest hexadecimal digits of `v`, most significant first. */
  function HexDigits(v: nat, n: nat): (ds: seq<nat>)
    ensures |ds| == n
    ensures forall k :: 0 <= k < n ==> ds[k] < 16
  {
    if n == 0 then [] else HexDigits(v / 16, n - 1) + [v % 16]
  }

  /** A number below 16^n is spelled by its `n` digits. */
  lemma {:induction false} HexNumberOfDigits(v: nat, n: nat)
    requires v < Pow16(n)
    ensures HexNumber(HexDigits(v, n)) == v
  {
    if n > 0 {
      var ds := HexDigits(v, n);
      HexNumberOfDigits(v / 16, n - 1);
      assert ds[..n - 1] == HexDigits(v / 16, n - 1);
    }
  }

  /** The digits of the number a digit sequence spells are that sequence. */
  lemma {:induction false} HexDigitsOfNumber(ds: seq<nat>)
    requires forall k :: 0 <= k < |ds| ==> ds[k] < 16
    ensures HexDigits(HexNumber(ds), |ds|) == ds
  {
    if |ds| > 0 {
      var n := |ds|;
      var v := HexNumber(ds);
      HexDigitsOfNumber(ds[..n - 1]);
      assert v / 16 == HexNumber(ds[..n - 1]);
      assert v % 16 == ds[n - 1];
      assert ds == ds[..n - 1] + [ds[n - 1]];
    }
  }

  /** Some character of the text is an information separator. */
  predicate HoldsInfoSeparator(s: string)
  {
    exists i :: 0 <= i < |s| && IsInfoSeparator(s[i])
  }

  /** `int(field, 16)` for a kept field. `int` reads the field as it is,
      not stripped: it skips whitespace at both ends, but not the
      information separators, and they are no digits either, so a field
      holding one is rejected wherever it stands. Otherwise what `int`
      skips is exactly what `strip` removes, and "0X" must be followed by
      at least one digit and nothing but the digit run. */
  function ParseLiteral(field: string): (r: Result<nat, ParseError>)
    requires IsKept(field)
    ensures r.Err? ==> r.error == InvalidLiteral(field)
  {
    if HoldsInfoSeparator(field) then Err(InvalidLiteral(field))
    else
      var s := Strip(field);
      match DigitRun(s[2..])
      case Some(ds) => if |ds| > 0 then Ok(HexNumber(ds)) else Err(InvalidLiteral(field))
      case None => Err(InvalidLiteral(field))
  }

  /** What `int(field, 16)` accepts and what it yields, independently of
      how `ParseLiteral` scans: a field without information separators
      whose stripped text is "0X" and a non-empty valid run, read as the
      number its digits spell. */
  lemma LiteralGrammar(field: string)
    requires IsKept(field)
    ensures ParseLiteral(field).Ok? <==>
      !HoldsInfoSeparator(field) && |Strip(field)| > 2 && ValidRun(Strip(field)[2..])
    ensures ParseLiteral(field).Ok? ==>
      ParseLiteral(field).value == HexNumber(DigitValues(Seqs.Filter(Strip(field)[2..], Hex.IsHexDigit)))
  {
    var run := Strip(field)[2..];
    DigitRunGrammar(run);
    if ValidRun(run) {
      DigitRunValues(run);
    }
  }

  /** A field that `strip` reduces to a literal but that carries an
      information separator in front: the filter keeps it, and `int`
      rejects it. */
  lemma SeparatorMargin(c: char, t: string)
    requires IsInfoSeparator(c)
    requires Solid(t) && |t| >= 2 && t[..2] == "0X"
    ensures IsKept([c] + t)
    ensures ParseLiteral([c] + t) == Err(InvalidLiteral([c] + t))
  {
    var w := [c];
    assert AllSpace(w);
    assert w + t + [] == [c] + t;
    StripMargins(w, t, []);
    StripSolid(t);
    assert StartsWith(Strip([c] + t), "0X");
    assert ([c] + t)[0] == c;
  }

  /** Whitespace that `int` skips, around text without an information
      separator, gives a field without one. */
  lemma IntMargins(w1: string, t: string, w2: string)
    requires AllIntSpace(w1) && AllIntSpace(w2) && !HoldsInfoSeparator(t)
    ensures AllSpace(w1) && AllSpace(w2)
    ensures !HoldsInfoSeparator(w1 + t + w2)
  {
    var f := w1 + t + w2;
    forall i | 0 <= i < |f|
      ensures !IsInfoSeparator(f[i])
    {
      if i < |w1| {
        assert f[i] == w1[i];
      } else if i < |w1| + |t| {
        assert f[i] == t[i - |w1|];
      } else {
        assert f[i] == w2[i - |w1| - |t|];
      }
    }
  }

  /** A field that strips to "0X" and two digits is kept and reads as
      the two-digit number `v`. */
  lemma TwoDigitLiteral(field: string, t: string, v: nat)
    requires Strip(field) == t && !HoldsInfoSeparator(field)
    requires |t| == 4 && t[..2] == "0X" && Hex.IsHexDigit(t[2]) && Hex.IsHexDigit(t[3])
    requires v == 16 * Hex.DigitValue(t[2]) + Hex.DigitValue(t[3])
    ensures IsKept(field) && ParseLiteral(field) == Ok(v)
  {
    assert StartsWith(t, "0X");
    var rest := t[2..];
    assert rest == [t[2], t[3]];
    TwoDigits(t[2], t[3]);
    var ds := [Hex.DigitValue(t[2]), Hex.DigitValue(t[3])];
    assert DigitRun(rest) == Some(ds) && HexNumber(ds) == v;
  }

  /** "0X" and two digits, with whitespace on either side, is a kept field
      that reads as the two-digit number `v`. */
  lemma HexLiteral(w1: string, t: string, w2: string, v: nat)
    requires AllIntSpace(w1) && AllIntSpace(w2)
    requires |t| == 4 && t[..2] == "0X" && Hex.IsHexDigit(t[2]) && Hex.IsHexDigit(t[3])
    requires v == 16 * Hex.DigitValue(t[2]) + Hex.DigitValue(t[3])
    ensures IsKept(w1 + t + w2)
    ensures ParseLiteral(w1 + t + w2) == Ok(v)
  {
    assert t[0] == '0' && t[1] == 'X';
    assert Solid(t);
    assert !HoldsInfoSeparator(t);
    IntMargins(w1, t, w2);
    StripMargins(w1, t, w2);
    StripSolid(t);
    TwoDigitLiteral(w1 + t + w2, t, v);
  }

  /** A field the filter rejects is dropped and one it accepts stays in
      place: the kept fields are the fields on either side, in order. */
  lemma KeepSplice(a: seq<string>, f: string, b: seq<string>)
    ensures IsKept(f) ==> Keep(a + [f] + b) == Keep(a) + [f] + Keep(b)
    ensures !IsKept(f) ==> Keep(a + [f] + b) == Keep(a) + Keep(b)
  {
    Seqs.FilterAppend(a + [f], b, IsKept);
    Seqs.FilterAppend(a, [f], IsKept);
    assert Keep(a + [f] + b) == Keep(a) + Keep([f]) + Keep(b);
    if IsKept(f) {
      KeepOne(f);
    } else {
      assert forall k :: 0 <= k < 1 ==> !IsKept([f][k]);
      assert Keep([f]) == [];
      assert Keep(a) + [] == Keep(a);
    }
  }

  /** Every field passes the comprehension's filter. */
  predicate AllKept(fields: seq<string>)
  {
    forall k :: 0 <= k < |fields| ==> IsKept(fields[k])
  }

  /** Field `k` is the first that `int` rejects. */
  predicate FirstUnreadable(fields: seq<string>, k: nat)
    requires AllKept(fields)
  {
    && k < |fields|
    && ParseLiteral(fields[k]).Err?
    && forall m :: 0 <= m < k ==> ParseLiteral(fields[m]).Ok?
  }

  /** `int` accepts the field, and its value fits in a byte. */
  predicate ReadsAsByte(field: string)
    requires IsKept(field)
  {
    ParseLiteral(field).Ok? && ParseLiteral(field).value < 256
  }

  /** The list comprehension's calls to `int`, one per kept field, in
      field order: the values of all fields when `int` accepts every one,
      otherwise the error of the first field it rejects. */
  function ParseAll(fields: seq<string>): (r: Result<seq<nat>, ParseError>)
    requires AllKept(fields)
    ensures r.Ok? <==> forall k :: 0 <= k < |fields| ==> ParseLiteral(fields[k]).Ok?
    ensures r.Ok? ==>
              && |r.value| == |fields|
              && forall k :: 0 <= k < |fields| ==> ParseLiteral(fields[k]) == Ok(r.value[k])
    ensures r.Err? ==> exists k: nat :: FirstUnreadable(fields, k) && r.error == InvalidLiteral(fields[k])
  {
    var rs := seq(|fields|, k requires 0 <= k < |fields| => ParseLiteral(fields[k]));
    CollectLiterals(fields, rs);
    assert Collect(rs).Err? ==>
             exists k: nat :: FirstUnreadable(fields, k) && Collect(rs).error == InvalidLiteral(fields[k]) by {
      if Collect(rs).Err? {
        CollectFailure(fields, rs);
      }
    }
    Collect(rs)
  }

  /** The results of `int` on the kept fields, in order. */
  predicate LiteralResults(fields: seq<string>, rs: seq<Result<nat, ParseError>>)
  {
    && AllKept(fields) && |rs| == |fields|
    && forall k :: 0 <= k < |fields| ==> rs[k] == ParseLiteral(fields[k])
  }

  /** Collecting succeeds exactly when `int` accepts every kept field, and
      then carries each field's value. */
  lemma CollectLiterals(fields: seq<string>, rs: seq<Result<nat, ParseError>>)
    requires LiteralResults(fields, rs)
    ensures Collect(rs).Ok? <==> forall k :: 0 <= k < |fields| ==> ParseLiteral(fields[k]).Ok?
    ensures Collect(rs).Ok? ==>
              && |Collect(rs).value| == |fields|
              && forall k :: 0 <= k < |fields| ==> ParseLiteral(fields[k]) == Ok(Collect(rs).value[k])
  {
    var r := Collect(rs);
    if r.Ok? {
      forall k | 0 <= k < |fields|
        ensures ParseLiteral(fields[k]) == Ok(r.value[k])
      {
        assert rs[k].Ok? && r.value[k] == rs[k].value;
      }
    }
  }

  /** A failing collection fails with the first field `int` rejects. */
  lemma CollectFailure(fields: seq<string>, rs: seq<Result<nat, ParseError>>)
    requires LiteralResults(fields, rs) && Collect(rs).Err?
    ensures exists k: nat :: FirstUnreadable(fields, k) && Collect(rs).error == InvalidLiteral(fields[k])
  {
    var k: nat :| FirstErr(rs, k) && Collect(rs).error == rs[k].error;
    assert FirstUnreadable(fields, k);
  }

  /** When every field is kept and each reads as the matching value, the
      filter keeps them all and the comprehension yields exactly those
      values. */
  lemma ParseAllOk(fields: seq<string>, values: seq<nat>)
    requires |fields| == |values|
    requires forall k :: 0 <= k < |fields| ==> IsKept(fields[k])
    requires forall k :: 0 <= k < |fields| ==> ParseLiteral(fields[k]) == Ok(values[k])
    ensures Keep(fields) == fields
    ensures ParseAll(fields) == Ok(values)
  {
    var rs := seq(|fields|, k requires 0 <= k < |fields| => ParseLiteral(fields[k]));
    CollectAllOk(rs, values);
  }

  /** One element of `bytearray(values)`. */
  function ByteOf(v: nat): (r: Result<byte, ParseError>)
    ensures r.Ok? <==> v < 256
    ensures r.Ok? ==> r.value as int == v
    ensures r.Err? ==> r.error == ByteOutOfRange(v)
  {
    if v < 256 then Ok(v as byte) else Err(ByteOutOfRange(v))
  }

  /** `bytearray(values)`: every value must lie in 0..255, and the bytes
      then carry exactly those values; otherwise the first value outside
      the range raises. */
  function ToBytes(values: seq<nat>): (r: Result<seq<byte>, ParseError>)
    ensures r.Ok? <==> forall k :: 0 <= k < |values| ==> values[k] < 256
    ensures r.Ok? ==>
              && |r.value| == |values|
              && forall k :: 0 <= k < |values| ==> r.value[k] as int == values[k]
    ensures r.Err? ==>
              exists k: nat :: k < |values| && values[k] >= 256 && r.error == ByteOutOfRange(values[k]) &&
                (forall m :: 0 <= m < k ==> values[m] < 256)
  {
    var rs := seq(|values|, k requires 0 <= k < |values| => ByteOf(values[k]));
    assert forall k :: 0 <= k < |values| ==> rs[k] == ByteOf(values[k]);
    var r := Collect(rs);
    assert r.Err? ==>
             exists k: nat :: k < |values| && values[k] >= 256 && r.error == ByteOutOfRange(values[k]) &&
               (forall m :: 0 <= m < k ==> values[m] < 256) by {
      if r.Err? {
        var k: nat :| FirstErr(rs, k) && r.error == rs[k].error;
        assert values[k] >= 256 && r.error == ByteOutOfRange(values[k]);
      }
    }
    r
  }

  /** `convert_h_to_bin` without the file reads and writes: the payload it
      would write, or the exception it would raise. */
  function Parse(content: string): (r: Result<seq<byte>, ParseError>)
    ensures r == Err(MissingOpenBrace) <==> '{' !in content
  {
    match ArrayText(content)
    case None => Err(MissingOpenBrace)
    case Some(text) =>
      var kept := Keep(Split(text, ','));
      match ParseAll(kept)
      case Err(e) => Err(e)
      case Ok(values) => ToBytes(values)
  }

  /** Parsing any content with a '{'. The fields between the braces that
      do not start with "0X" once stripped are dropped. When `int` accepts
      every kept field and each value is below 256, the bytes are those
      values in field order. Otherwise the first kept field `int` rejects
      decides the error, even if an earlier value is too large for a
      byte; only when `int` accepts them all is the first value above 255
      reported. */
  lemma ParseFields(content: string)
    requires '{' in content
    ensures var kept := Keep(Split(ArrayText(content).value, ','));
            var r := Parse(content);
            && (r.Ok? <==> forall k :: 0 <= k < |kept| ==> ReadsAsByte(kept[k]))
            && (r.Ok? ==>
                  && |r.value| == |kept|
                  && forall k :: 0 <= k < |kept| ==> ParseLiteral(kept[k]) == Ok(r.value[k] as nat))
            && (forall k: nat :: FirstUnreadable(kept, k) ==> r == Err(InvalidLiteral(kept[k])))
            && ((forall k :: 0 <= k < |kept| ==> ParseLiteral(kept[k]).Ok?) && r.Err? ==>
                  exists k: nat :: FirstOversized(kept, k) && r == Err(ByteOutOfRange(ParseLiteral(kept[k]).value)))
  {
    var kept := Keep(Split(ArrayText(content).value, ','));
    ParseKept(content);
    KeptOutcome(kept, Parse(content));
  }

  /** With a '{' present, the parse is decided by the kept fields alone. */
  lemma ParseKept(content: string)
    requires '{' in content
    ensures var kept := Keep(Split(ArrayText(content).value, ','));
            Parse(content) == match ParseAll(kept) case Err(e) => Err(e) case Ok(vs) => ToBytes(vs)
  {
  }

  /** The outcome of the comprehension and `bytearray` on the kept fields. */
  lemma KeptOutcome(kept: seq<string>, r: Result<seq<byte>, ParseError>)
    requires AllKept(kept)
    requires r == match ParseAll(kept) case Err(e) => Err(e) case Ok(vs) => ToBytes(vs)
    ensures r.Ok? <==> forall k :: 0 <= k < |kept| ==> ReadsAsByte(kept[k])
    ensures r.Ok? ==>
              && |r.value| == |kept|
              && forall k :: 0 <= k < |kept| ==> ParseLiteral(kept[k]) == Ok(r.value[k] as nat)
    ensures forall k: nat :: FirstUnreadable(kept, k) ==> r == Err(InvalidLiteral(kept[k]))
    ensures (forall k :: 0 <= k < |kept| ==> ParseLiteral(kept[k]).Ok?) && r.Err? ==>
              exists k: nat :: FirstOversized(kept, k) && r == Err(ByteOutOfRange(ParseLiteral(kept[k]).value))
  {
    if ParseAll(kept).Err? {
      Unreadable(kept, r);
    } else {
      ReadBytes(kept, ParseAll(kept).value, r);
    }
  }

  /** When `int` rejects a kept field, the first one it rejects ends the
      parse with that field's error. */
  lemma Unreadable(kept: seq<string>, r: Result<seq<byte>, ParseError>)
    requires AllKept(kept) && ParseAll(kept).Err? && r == Err(ParseAll(kept).error)
    ensures exists k: nat :: FirstUnreadable(kept, k)
    ensures forall k: nat :: FirstUnreadable(kept, k) ==> r == Err(InvalidLiteral(kept[k]))
    ensures !forall k :: 0 <= k < |kept| ==> ReadsAsByte(kept[k])
  {
    var k0: nat :| FirstUnreadable(kept, k0) && r.error == InvalidLiteral(kept[k0]);
    forall k: nat | FirstUnreadable(kept, k)
      ensures k == k0
    {
    }
    assert !ReadsAsByte(kept[k0]);
  }

  /** Field `k` is the first whose value does not fit in a byte. */
  predicate FirstOversized(fields: seq<string>, k: nat)
    requires AllKept(fields)
    requires forall m :: 0 <= m < |fields| ==> ParseLiteral(fields[m]).Ok?
  {
    && k < |fields|
    && ParseLiteral(fields[k]).value >= 256
    && forall m :: 0 <= m < k ==> ParseLiteral(fields[m]).value < 256
  }

  /** The values `int` read from every kept field, given to `bytearray`. */
  lemma ReadBytes(kept: seq<string>, vs: seq<nat>, r: Result<seq<byte>, ParseError>)
    requires AllKept(kept) && |vs| == |kept| && r == ToBytes(vs)
    requires forall k :: 0 <= k < |kept| ==> ParseLiteral(kept[k]) == Ok(vs[k])
    ensures r.Ok? <==> forall k :: 0 <= k < |kept| ==> ReadsAsByte(kept[k])
    ensures r.Ok? ==>
              && |r.value| == |kept|
              && forall k :: 0 <= k < |kept| ==> ParseLiteral(kept[k]) == Ok(r.value[k] as nat)
    ensures r.Err? ==>
              exists k: nat :: FirstOversized(kept, k) && r == Err(ByteOutOfRange(ParseLiteral(kept[k]).value))
  {
    if r.Err? {
      Oversized(kept, vs, r);
    }
  }

  /** `bytearray` refuses the first value read that does not fit. */
  lemma Oversized(kept: seq<string>, vs: seq<nat>, r: Result<seq<byte>, ParseError>)
    requires AllKept(kept) && |vs| == |kept| && r == ToBytes(vs) && r.Err?
    requires forall k :: 0 <= k < |kept| ==> ParseLiteral(kept[k]) == Ok(vs[k])
    ensures exists k: nat :: FirstOversized(kept, k) && r == Err(ByteOutOfRange(ParseLiteral(kept[k]).value))
  {
    var k: nat :| k < |vs| && vs[k] >= 256 && r.error == ByteOutOfRange(vs[k]) &&
                  (forall m :: 0 <= m < k ==> vs[m] < 256);
    assert ParseLiteral(kept[k]) == Ok(vs[k]);
    forall m | 0 <= m < k
      ensures ParseLiteral(kept[m]).value < 256
    {
      assert ParseLiteral(kept[m]) == Ok(vs[m]);
    }
    assert FirstOversized(kept, k);
  }

  /** Of two kept fields, a second one that `int` rejects decides the
      error whatever value the first one reads as. */
  lemma LaterUnreadable(x: string, y: string)
    requires ',' !in x && ',' !in y && '}' !in x && '}' !in y
    requires IsKept(x) && IsKept(y)
    requires ParseLiteral(x).Ok? && ParseLiteral(y).Err?
    ensures Parse("{" + x + "," + y + "}") == Err(InvalidLiteral(y))
  {
    var content := "{" + x + "," + y + "}";
    TwoFieldArray(x, y, content);
    SecondUnreadable(x, y);
    UnreadableDecides(content, [x, y], 1);
  }

  /** Two comma-free fields in braces are the array's two fields. */
  lemma TwoFieldArray(x: string, y: string, content: string)
    requires ',' !in x && ',' !in y && '}' !in x && '}' !in y
    requires content == "{" + x + "," + y + "}"
    ensures '{' in content && Split(ArrayText(content).value, ',') == [x, y]
  {
    var b := x + "," + y;
    assert content == "" + "{" + b + "}" + "";
    ArrayTextBetween("", b, "");
    TwoFields(x, y);
  }

  /** The first kept field that `int` rejects decides the parse. */
  lemma UnreadableDecides(content: string, kept: seq<string>, k: nat)
    requires '{' in content && kept == Keep(Split(ArrayText(content).value, ','))
    requires FirstUnreadable(kept, k)
    ensures Parse(content) == Err(InvalidLiteral(kept[k]))
  {
    ParseFields(content);
  }

  /** Of two kept fields, both survive the filter, and a second one that
      `int` rejects behind a first it accepts is the first rejected. */
  lemma SecondUnreadable(x: string, y: string)
    requires IsKept(x) && IsKept(y)
    requires ParseLiteral(x).Ok? && ParseLiteral(y).Err?
    ensures AllKept([x, y]) && Keep([x, y]) == [x, y]
    ensures FirstUnreadable([x, y], 1)
  {
    var fields := [x, y];
    assert fields[0] == x && fields[1] == y;
    assert AllKept(fields);
  }

  /** Two comma-free fields joined by a comma split back into both. */
  lemma TwoFields(x: string, y: string)
    requires ',' !in x && ',' !in y
    ensures Split(x + "," + y, ',') == [x, y]
  {
    SplitFree(x, ',');
    SplitFree(y, ',');
    SplitAround(x, ',', y);
  }

  /** The digits "100" spell 256. */
  lemma HundredDigits()
    ensures DigitRun("100") == Some([1, 0, 0])
    ensures HexNumber([1, 0, 0]) == 256
  {
    assert "100"[1..] == ['0', '0'];
    TwoDigits('0', '0');
    assert Hex.DigitValue('0') == 0 && Hex.DigitValue('1') == 1;
    assert [1] + [0, 0] == [1, 0, 0];
    assert DigitRun("100") == Prepend(1, DigitRun(['0', '0']));
    assert [1, 0, 0][..2] == [1, 0] && [1, 0][..1] == [1] && [1][..0] == [];
  }

  /** "0X100" is a kept field without a separator or a closing brace, and
      it reads as 256. */
  lemma OversizedValue(lit: string)
    requires lit == "0X100"
    ensures '}' !in lit && ',' !in lit
    ensures IsKept(lit) && ParseLiteral(lit) == Ok(256)
  {
    assert lit[..2] == "0X" && lit[2..] == "100";
    HundredDigits();
    DigitsLiteral(lit, [1, 0, 0], 256);
  }

  /** A field without surrounding whitespace, "0X" and a run of digits
      that spells `v`, is kept and reads as `v`. */
  lemma DigitsLiteral(field: string, ds: seq<nat>, v: nat)
    requires Solid(field) && |field| >= 2 && field[..2] == "0X"
    requires DigitRun(field[2..]) == Some(ds) && |ds| > 0
    requires HexNumber(ds) == v
    ensures IsKept(field) && ParseLiteral(field) == Ok(v)
  {
    SolidKept(field);
    StripSolid(field);
    DigitRunGrammar(field[2..]);
    ValidRunClean(field[2..]);
    forall i | 0 <= i < |field|
      ensures !IsInfoSeparator(field[i])
    {
      if i < 2 {
        assert field[i] == "0X"[i];
      } else {
        assert field[i] == field[2..][i - 2];
      }
    }
  }

  /** A single kept field survives the filter. */
  lemma KeepOne(field: string)
    requires IsKept(field)
    ensures Keep([field]) == [field]
  {
    assert forall k :: 0 <= k < 1 ==> IsKept([field][k]);
  }

  /** A single field that reads as `v` gives the one-value list. */
  lemma ParseOne(field: string, v: nat)
    requires IsKept(field) && ParseLiteral(field) == Ok(v)
    ensures ParseAll([field]) == Ok([v])
  {
    ParseAllOk([field], [v]);
  }

  /** A three-digit literal reads as a value above 255, which `bytearray`
      refuses. */
  lemma OversizedLiteral()
    ensures Parse("{0X100}") == Err(ByteOutOfRange(256))
  {
    var lit := "0X100";
    assert "{0X100}" == "{" + lit + "}";
    OversizedValue(lit);
    LoneLiteral(lit);
    RefusedByte(256);
  }

  /** A lone value above 255 is refused by `bytearray`. */
  lemma RefusedByte(v: nat)
    requires v >= 256
    ensures ToBytes([v]) == Err(ByteOutOfRange(v))
  {
    assert ByteOf(v).Err?;
  }

  /** An array of one kept literal: the parse fails with the literal's own
      error, or turns its one value into a byte. */
  lemma LoneLiteral(lit: string)
    requires '}' !in lit && ',' !in lit && IsKept(lit)
    ensures Parse("{" + lit + "}") ==
              match ParseLiteral(lit)
              case Err(e) => Err(e)
              case Ok(v) => ToBytes([v])
  {
    assert "{" + lit + "}" == "" + "{" + lit + "}" + "";
    ArrayTextBetween("", lit, "");
    SplitFree(lit, ',');
    KeepOne(lit);
    if ParseLiteral(lit).Err? {
      FailingOne(lit);
    } else {
      ParseOne(lit, ParseLiteral(lit).value);
    }
  }

  /** A kept field with no digit after the prefix is not a number: `int`
      raises on it. */
  lemma BarePrefix(field: string)
    requires Strip(field) == "0X"
    ensures IsKept(field) && ParseLiteral(field) == Err(InvalidLiteral(field))
  {
    assert Strip(field)[..2] == "0X";
    assert Strip(field)[2..] == [];
  }

  /** The error of a field `int` rejects ends the parse, before any byte
      range is looked at: "{0X}" fails on its field "0X". */
  lemma BarePrefixParse()
    ensures Parse("{0X}") == Err(InvalidLiteral("0X"))
  {
    var lit := "0X";
    assert "{0X}" == "{" + lit + "}";
    BareLiteral(lit);
    LoneLiteral(lit);
  }

  /** "0X" is a kept field without a separator or a closing brace, and
      `int` rejects it. */
  lemma BareLiteral(lit: string)
    requires lit == "0X"
    ensures '}' !in lit && ',' !in lit && Solid(lit) && Strip(lit) == lit
    ensures IsKept(lit) && ParseLiteral(lit) == Err(InvalidLiteral(lit))
  {
    assert lit[0] == '0' && lit[1] == 'X';
    StripSolid(lit);
    BarePrefix(lit);
  }

  /** A single kept field that `int` rejects makes the whole list fail. */
  lemma FailingOne(field: string)
    requires IsKept(field) && ParseLiteral(field).Err?
    ensures ParseAll([field]) == Err(ParseLiteral(field).error)
  {
    var rs := seq(1, k requires 0 <= k < 1 => ParseLiteral([field][k]));
    assert rs == [ParseLiteral(field)];
    assert rs[1..] == [];
  }
}

=== FILE: hex.dfy ===
/** Hexadecimal digit characters as Python reads and writes them. */
module Hex {

  /** A digit `int(_, 16)` accepts: 0-9, a-f, A-F. */
  predicate IsHexDigit(c: char)
  {
    ('0' <= c <= '9') || ('a' <= c <= 'f') || ('A' <= c <= 'F')
  }

  /** The value of a hexadecimal digit, in either case. */
  function DigitValue(c: char): (v: nat)
    requires IsHexDigit(c)
    ensures v < 16
  {
    if c <= '9' then c as int - '0' as int
    else if c >= 'a' then c as int - 'a' as int + 10
    else c as int - 'A' as int + 10
  }

  /** The digit `format(_, 'X')` writes for `d`: upper case, and read back
      as `d`. */
  function UpperDigit(d: nat): (c: char)
    requires d < 16
    ensures IsHexDigit(c) && DigitValue(c) == d
    ensures ('0' <= c <= '9') || ('A' <= c <= 'F')
  {
    if d < 10 then ('0' as int + d) as char else ('A' as int + d - 10) as char
  }
}

=== FILE: results.dfy ===
/** Failure-carrying values shared by the codec modules. */
module Results {

  /** An optional value: Python's "maybe there is an index / a match". */
  datatype Option<T> = None | Some(value: T)

  /** The outcome of a stage that can raise: a value, or the error it raised. */
  datatype Result<T, E> = Ok(value: T) | Err(error: E)

  /** Entry `k` is the first failure in `rs`. */
  predicate FirstErr<T, E>(rs: seq<Result<T, E>>, k: nat)
  {
    && k < |rs|
    && rs[k].Err?
    && forall m :: 0 <= m < k ==> rs[m].Ok?
  }

  /** Evaluates results in order, as a Python comprehension evaluates its
      elements: all values when every entry succeeds, otherwise the error of
      the first entry that fails. */
  function Collect<T, E>(rs: seq<Result<T, E>>): (r: Result<seq<T>, E>)
    ensures r.Ok? <==> forall k :: 0 <= k < |rs| ==> rs[k].Ok?
    ensures r.Ok? ==>
              && |r.value| == |rs|
              && forall k :: 0 <= k < |rs| ==> r.value[k] == rs[k].value
    ensures r.Err? ==> exists k: nat :: FirstErr(rs, k) && r.error == rs[k].error
  {
    if |rs| == 0 then Ok([])
    else match rs[0]
      case Err(e) =>
        assert FirstErr(rs, 0);
        Err(e)
      case Ok(v) =>
        match Collect(rs[1..])
        case Err(e) =>
          ghost var k: nat :| FirstErr(rs[1..], k) && e == rs[1..][k].error;
          assert FirstErr(rs, k + 1) by {
            forall m | 0 <= m < k + 1
              ensures rs[m].Ok?
            {
              if m > 0 {
                assert rs[m] == rs[1..][m - 1];
              }
            }
          }
          Err(e)
        case Ok(vs) => Ok([v] + vs)
  }

  /** When every entry succeeds, `Collect` returns exactly their values. */
  lemma CollectAllOk<T, E>(rs: seq<Result<T, E>>, vs: seq<T>)
    requires |rs| == |vs|
    requires forall k :: 0 <= k < |rs| ==> rs[k] == Ok(vs[k])
    ensures Collect(rs) == Ok(vs)
  {
    var r := Collect(rs);
    assert r.Ok?;
    assert r.value == vs;
  }
}

=== FILE: seqs.dfy ===
/** Sequence helpers: row-major flattening of a grid. */
module Seqs {

  /** Concatenates the rows of a grid in order (numpy's row-major `flatten`). */
  function Flatten<T>(rows: seq<seq<T>>): seq<T>
  {
    if |rows| == 0 then [] else rows[0] + Flatten(rows[1..])
  }

  /** Every row has exactly `width` cells. */
  predicate Rectangular<T>(rows: seq<seq<T>>, width: nat)
  {
    forall i :: 0 <= i < |rows| ==> |rows[i]| == width
  }

  /** Flattening a grid of `h` rows of `width` cells gives `h * width` cells. */
  lemma {:induction false} FlattenLength<T>(rows: seq<seq<T>>, width: nat)
    requires Rectangular(rows, width)
    ensures |Flatten(rows)| == |rows| * width
  {
    if |rows| > 0 {
      FlattenLength(rows[1..], width);
      MulSucc(|rows| - 1, width);
    }
  }

  /** Cell (r, c) of a grid of `width`-wide rows lands at index r * width + c. */
  lemma {:induction false} FlattenAt<T>(rows: seq<seq<T>>, width: nat, r: nat, c: nat)
    requires Rectangular(rows, width)
    requires r < |rows| && c < width
    ensures r * width + c < |Flatten(rows)|
    ensures Flatten(rows)[r * width + c] == rows[r][c]
  {
    FlattenLength(rows, width);
    MulSucc(r, width);
    if r > 0 {
      var tail := rows[1..];
      FlattenAt(tail, width, r - 1, c);
      MulSucc(r - 1, width);
      assert rows[r] == tail[r - 1];
    }
  }

  /** A slice of a suffix is a slice of the whole, shifted. */
  lemma SliceOfSuffix<T>(s: seq<T>, m: nat, lo: nat, hi: nat)
    requires lo <= hi && m + hi <= |s|
    ensures s[m..][lo..hi] == s[m + lo..m + hi]
  {
  }

  lemma MulSucc(n: nat, w: nat)
    ensures n * w + w == (n + 1) * w
  {
  }

  /** The elements of `xs` that satisfy `p`, in order (a comprehension with
      an `if` clause): only such elements, all of `xs` when every element
      qualifies, none when no element does. */
  function Filter<T>(xs: seq<T>, p: T -> bool): (ys: seq<T>)
    ensures |ys| <= |xs|
    ensures forall k :: 0 <= k < |ys| ==> p(ys[k])
    ensures (forall k :: 0 <= k < |xs| ==> p(xs[k])) ==> ys == xs
    ensures (forall k :: 0 <= k < |xs| ==> !p(xs[k])) ==> ys == []
  {
    if |xs| == 0 then []
    else if p(xs[0]) then [xs[0]] + Filter(xs[1..], p)
    else Filter(xs[1..], p)
  }

  /** Filtering distributes over concatenation, so the kept elements keep
      their relative order. */
  lemma {:induction false} FilterAppend<T>(a: seq<T>, b: seq<T>, p: T -> bool)
    ensures Filter(a + b, p) == Filter(a, p) + Filter(b, p)
  {
    if |a| == 0 {
      assert a + b == b;
    } else {
      assert (a + b)[1..] == a[1..] + b;
      FilterAppend(a[1..], b, p);
    }
  }
}

=== FILE: text.dfy ===
/** The few Python `str` operations the codec relies on, over `string`
    (a sequence of Unicode scalar values). */
module Text {
  import opened Results

  /** The information separators FS, GS, RS and US (U+001C..U+001F):
      `str.isspace` accepts them, but among ASCII characters Python's
      number parser skips only C whitespace, which leaves them out. */
  predicate IsInfoSeparator(c: char)
  {
    '\U{1C}' <= c <= '\U{1F}'
  }

  /** Python's `str.isspace` for one character: the ASCII controls
      TAB..CR and FS..US, SPACE, NEL, NBSP and the Unicode space separators. */
  predicate IsSpace(c: char)
  {
    || ('\t' <= c <= '\r')
    || IsInfoSeparator(c)
    || c == ' '
    || c == '\U{85}'
    || c == '\U{A0}'
    || c == '\U{1680}'
    || ('\U{2000}' <= c <= '\U{200A}')
    || c == '\U{2028}'
    || c == '\U{2029}'
    || c == '\U{202F}'
    || c == '\U{205F}'
    || c == '\U{3000}'
  }

  predicate AllSpace(s: string)
  {
    forall i :: 0 <= i < |s| ==> IsSpace(s[i])
  }

  /** The whitespace `int` skips around a literal: `str.isspace` without the
      information separators (a non-ASCII space is first turned into ' '). */
  predicate IsIntSpace(c: char)
  {
    IsSpace(c) && !IsInfoSeparator(c)
  }

  predicate AllIntSpace(s: string)
  {
    forall i :: 0 <= i < |s| ==> IsIntSpace(s[i])
  }

  /** `s.lstrip()`: drops the longest all-whitespace prefix. */
  function TrimLeft(s: string): (r: string)
    ensures |r| <= |s| && r == s[|s| - |r|..]
    ensures AllSpace(s[..|s| - |r|])
    ensures |r| > 0 ==> !IsSpace(r[0])
  {
    if |s| > 0 && IsSpace(s[0]) then TrimLeft(s[1..]) else s
  }

  /** `s.rstrip()`: drops the longest all-whitespace suffix. */
  function TrimRight(s: string): (r: string)
    ensures |r| <= |s| && r == s[..|r|]
    ensures AllSpace(s[|r|..])
    ensures |r| > 0 ==> !IsSpace(r[|r| - 1])
  {
    if |s| > 0 && IsSpace(s[|s| - 1]) then TrimRight(s[..|s| - 1]) else s
  }

  /** `s.strip()`. */
  function Strip(s: string): (r: string)
    ensures |r| <= |s|
    ensures |r| > 0 ==> !IsSpace(r[0]) && !IsSpace(r[|r| - 1])
    ensures r == [] <==> AllSpace(s)
  {
    var l := TrimLeft(s);
    var r := TrimRight(l);
    assert |r| > 0 ==> r[0] == l[0];
    assert l == [] ==> AllSpace(s) by {
      if l == [] {
        assert s[..|s|] == s;
      }
    }
    assert l != [] ==> r != [];
    r
  }

  /** A string that `strip` leaves alone: empty, or no whitespace at either end. */
  predicate Solid(s: string)
  {
    |s| > 0 ==> !IsSpace(s[0]) && !IsSpace(s[|s| - 1])
  }

  lemma {:induction false} TrimLeftSpaces(w: string, x: string)
    requires AllSpace(w)
    ensures TrimLeft(w + x) == TrimLeft(x)
  {
    if |w| > 0 {
      assert (w + x)[1..] == w[1..] + x;
      TrimLeftSpaces(w[1..], x);
    } else {
      assert w + x == x;
    }
  }

  lemma {:induction false} TrimRightSpaces(x: string, w: string)
    requires AllSpace(w)
    ensures TrimRight(x + w) == TrimRight(x)
  {
    if |w| > 0 {
      assert (x + w)[..|x + w| - 1] == x + w[..|w| - 1];
      TrimRightSpaces(x, w[..|w| - 1]);
    } else {
      assert x + w == x;
    }
  }

  /** Whitespace around a string does not change what `strip` returns. */
  lemma StripMargins(w1: string, x: string, w2: string)
    requires AllSpace(w1) && AllSpace(w2)
    ensures Strip(w1 + x + w2) == Strip(x)
  {
    var s := w1 + x + w2;
    assert s == w1 + (x + w2);
    TrimLeftSpaces(w1, x + w2);
    assert TrimLeft(s) == TrimLeft(x + w2);
    StripRightMargin(x, w2);
    assert Strip(s) == TrimRight(TrimLeft(s));
  }

  lemma StripRightMargin(x: string, w: string)
    requires AllSpace(w)
    ensures TrimRight(TrimLeft(x + w)) == Strip(x)
  {
    var l := TrimLeft(x);
    if l == [] {
      assert TrimLeft(x + w) == [] by {
        assert x[..|x|] == x;
        AllSpaceAppend(x, w);
        TrimLeftAllSpace(x + w);
      }
    } else {
      TrimLeftAppend(x, w);
      TrimRightSpaces(l, w);
    }
  }

  lemma AllSpaceAppend(a: string, b: string)
    requires AllSpace(a) && AllSpace(b)
    ensures AllSpace(a + b)
  {
    forall i | 0 <= i < |a + b|
      ensures IsSpace((a + b)[i])
    {
      if i < |a| {
        assert (a + b)[i] == a[i];
      } else {
        assert (a + b)[i] == b[i - |a|];
      }
    }
  }

  /** `strip` leaves a solid string as it is. */
  lemma StripSolid(x: string)
    requires Solid(x)
    ensures Strip(x) == x
  {
  }

  lemma {:induction false} TrimLeftAllSpace(s: string)
    requires AllSpace(s)
    ensures TrimLeft(s) == []
  {
    if |s| > 0 {
      TrimLeftAllSpace(s[1..]);
    }
  }

  lemma {:induction false} TrimLeftAppend(x: string, w: string)
    requires TrimLeft(x) != []
    ensures TrimLeft(x + w) == TrimLeft(x) + w
  {
    if |x| > 0 && IsSpace(x[0]) {
      assert (x + w)[1..] == x[1..] + w;
      TrimLeftAppend(x[1..], w);
    }
  }

  predicate StartsWith(s: string, prefix: string)
  {
    |prefix| <= |s| && s[..|prefix|] == prefix
  }

  /** The position of the first `c` in `s`, if any: where `s.split(c, 1)`
      cuts, and None when it does not cut at all. */
  function FirstIndex(s: string, c: char): (r: Option<nat>)
    ensures r.None? <==> c !in s
    ensures r.Some? ==> r.value < |s| && s[r.value] == c && c !in s[..r.value]
  {
    if |s| == 0 then None
    else if s[0] == c then Some(0)
    else match FirstIndex(s[1..], c)
      case None => None
      case Some(i) =>
        assert s[..i + 1] == [s[0]] + s[1..][..i];
        Some(i + 1)
  }

  /** The first occurrence is the only position with `c` and no `c` before it. */
  lemma FirstIndexAt(s: string, c: char, i: nat)
    requires i < |s| && s[i] == c && c !in s[..i]
    ensures FirstIndex(s, c) == Some(i)
  {
    var r := FirstIndex(s, c);
    assert r.Some? by {
      assert s[i] in s;
    }
  }

  /** `sep.join(parts)`. */
  function Join(parts: seq<string>, sep: string): string
  {
    if |parts| == 0 then ""
    else if |parts| == 1 then parts[0]
    else parts[0] + sep + Join(parts[1..], sep)
  }

  /** A part in front of at least one more is followed by the separator. */
  lemma JoinCons(p: string, parts: seq<string>, sep: string)
    requires |parts| >= 1
    ensures Join([p] + parts, sep) == p + sep + Join(parts, sep)
  {
    assert ([p] + parts)[1..] == parts;
  }

  /** A character in neither the separator nor any part is not in the
      joined text. */
  lemma {:induction false} JoinFree(parts: seq<string>, sep: string, ch: char)
    requires ch !in sep
    requires forall k :: 0 <= k < |parts| ==> ch !in parts[k]
    ensures ch !in Join(parts, sep)
  {
    if |parts| > 1 {
      JoinFree(parts[1..], sep, ch);
    }
  }

  /** `s.split(c)` for a one-character separator: always at least one
      field. */
  function Split(s: string, c: char): (r: seq<string>)
    ensures |r| >= 1
  {
    if |s| == 0 then [""]
    else
      var r := Split(s[1..], c);
      if s[0] == c then [""] + r else [[s[0]] + r[0]] + r[1..]
  }

  /** No field holds the separator. */
  lemma {:induction false} SplitFieldsFree(s: string, c: char)
    ensures forall k :: 0 <= k < |Split(s, c)| ==> c !in Split(s, c)[k]
  {
    if |s| > 0 {
      var r := Split(s[1..], c);
      SplitFieldsFree(s[1..], c);
      if s[0] != c {
        assert c !in [s[0]] + r[0];
      }
    }
  }

  /** Joining the fields with the separator gives the string back. */
  lemma {:induction false} JoinSplit(s: string, c: char)
    ensures Join(Split(s, c), [c]) == s
  {
    if |s| > 0 {
      var r := Split(s[1..], c);
      JoinSplit(s[1..], c);
      if s[0] == c {
        assert ([""] + r)[1..] == r;
      } else if |r| > 1 {
        var f := [[s[0]] + r[0]] + r[1..];
        assert f[1..] == r[1..];
        assert Join(r, [c]) == r[0] + [c] + Join(r[1..], [c]);
      }
      assert s == [s[0]] + s[1..];
    }
  }

  /** A string without the separator is a single field. */
  lemma {:induction false} SplitFree(s: string, c: char)
    requires c !in s
    ensures Split(s, c) == [s]
  {
    if |s| > 0 {
      SplitFree(s[1..], c);
      assert s == [s[0]] + s[1..];
    }
  }

  /** Splitting the join of separator-free parts gives the parts back. */
  lemma {:induction false} SplitJoin(parts: seq<string>, c: char)
    requires |parts| >= 1
    requires forall k :: 0 <= k < |parts| ==> c !in parts[k]
    ensures Split(Join(parts, [c]), c) == parts
  {
    if |parts| == 1 {
      SplitFree(parts[0], c);
    } else {
      SplitJoin(parts[1..], c);
      SplitFree(parts[0], c);
      SplitAround(parts[0], c, Join(parts[1..], [c]));
      assert parts == [parts[0]] + parts[1..];
    }
  }

  /** A separator splits a string into the fields on its left followed by
      the fields on its right. */
  lemma {:induction false} SplitAround(a: string, c: char, b: string)
    ensures Split(a + [c] + b, c) == Split(a, c) + Split(b, c)
  {
    var s := a + [c] + b;
    if |a| == 0 {
      assert s[1..] == b;
    } else {
      assert s[1..] == a[1..] + [c] + b;
      SplitAround(a[1..], c, b);
    }
  }

  /** Separator-free text in front of a string joins its first field. */
  lemma {:induction false} SplitPrepend(p: string, c: char, s: string)
    requires c !in p
    ensures Split(p + s, c) == [p + Split(s, c)[0]] + Split(s, c)[1..]
  {
    if |p| > 0 {
      assert (p + s)[1..] == p[1..] + s;
      SplitPrepend(p[1..], c, s);
      var f, r := Split(s, c), Split(p[1..] + s, c);
      assert r[0] == p[1..] + f[0] && r[1..] == f[1..];
      assert [p[0]] + r[0] == p + f[0];
    } else {
      var f := Split(s, c);
      assert p + s == s;
      assert p + f[0] == f[0];
      assert f == [f[0]] + f[1..];
    }
  }

  /** Separator-free text after a string joins its last field. */
  lemma {:induction false} SplitAppend(s: string, c: char, q: string)
    requires c !in q
    ensures var f := Split(s, c);
            Split(s + q, c) == f[..|f| - 1] + [f[|f| - 1] + q]
  {
    if |s| == 0 {
      assert s + q == q;
      SplitFree(q, c);
    } else {
      var t := s[1..];
      assert (s + q)[1..] == t + q;
      SplitAppend(t, c, q);
      if s[0] == c {
        LastGrowsBehind("", Split(t, c), Split(t + q, c), q);
      } else {
        LastGrowsInside([s[0]], Split(t, c), Split(t + q, c), q);
      }
    }
  }

  /** A new first field in front keeps `q` at the end of the last one. */
  lemma LastGrowsBehind(h: string, f: seq<string>, g: seq<string>, q: string)
    requires |f| >= 1 && g == f[..|f| - 1] + [f[|f| - 1] + q]
    ensures var e := [h] + f; [h] + g == e[..|e| - 1] + [e[|e| - 1] + q]
  {
    var e := [h] + f;
    assert e[..|e| - 1] == [h] + f[..|f| - 1];
  }

  /** Text joined to the first field keeps `q` at the end of the last one. */
  lemma LastGrowsInside(h: string, f: seq<string>, g: seq<string>, q: string)
    requires |f| >= 1 && g == f[..|f| - 1] + [f[|f| - 1] + q]
    ensures var e := [h + f[0]] + f[1..];
            [h + g[0]] + g[1..] == e[..|e| - 1] + [e[|e| - 1] + q]
  {
    var e := [h + f[0]] + f[1..];
    var d := [h + g[0]] + g[1..];
    assert |d| == |e|;
    if |f| == 1 {
      assert d == [h + (f[0] + q)];
      assert h + (f[0] + q) == (h + f[0]) + q;
      assert e[..0] + [e[0] + q] == [(h + f[0]) + q];
    } else {
      var want := e[..|e| - 1] + [e[|e| - 1] + q];
      forall k | 0 <= k < |d|
        ensures d[k] == want[k]
      {
        if k == 0 {
          assert g[0] == f[0];
        } else if k < |d| - 1 {
          assert g[k] == f[k];
        }
      }
      assert d == want;
    }
  }

  /** Separator-free text on both sides of a string joins its first and its
      last field; the number of fields does not change. */
  lemma SplitFramed(pre: string, s: string, post: string, c: char)
    requires c !in pre && c !in post
    ensures |Split(pre + s + post, c)| == |Split(s, c)|
    ensures forall k :: 0 <= k < |Split(s, c)| ==>
              Split(pre + s + post, c)[k] ==
                (if k == 0 then pre else "") + Split(s, c)[k] + (if k == |Split(s, c)| - 1 then post else "")
  {
    var f := Split(s, c);
    var n := |f|;
    SplitAppend(s, c, post);
    var h := Split(s + post, c);
    assert pre + s + post == pre + (s + post);
    SplitPrepend(pre, c, s + post);
    var g := Split(pre + s + post, c);
    assert g == [pre + h[0]] + h[1..];
    forall k | 0 <= k < n
      ensures g[k] == (if k == 0 then pre else "") + f[k] + (if k == n - 1 then post else "")
    {
      var last := if k == n - 1 then post else "";
      assert h[k] == f[k] + last;
      if k == 0 {
        assert g[0] == pre + (f[0] + last);
      } else {
        assert g[k] == h[k];
      }
    }
  }
}
